=== FILE: README.md ===
# Mind-map editor core in Dafny

A Dafny model of the core of a mind-map editor: an Angular/TypeScript app where
a user drags idea nodes on a zoomable canvas. It covers three parts.

- **The tree store** (`app-state.service.ts`, modules `TreeStore` and `TreeLemmas`).
  It is a flat list of node records linked by `parentId`, plus the selected
  id. Operations: create the root, add a child, cascade delete, move,
  relabel, list the connections, reset.
- **The file codec** (`file.service.ts`, module `FileCodec`). Export builds the
  version "1" `.mind` document. Import validates a parsed document and
  replaces the nodes.
- **The canvas** (`mindmap.component.ts`, modules `Viewport` and `Gestures`).
  - `Viewport` covers the pan/scale transform: zoom around a point,
    scale-compensated pan, pinch, fit-to-content and reset.
  - `Gestures` covers every event handler: node drag with the 5-pixel touch
    threshold, background pan, the 300 ms double tap, the touch-end
    deselection rule and the label-edit guards. One `Dispatch` function
    routes an `Event` to its handler.
- **Helpers.** `JsText` models `String.prototype.trim` (used by the edit
  guards). `Wrappers` holds `Option`.

Modelling conventions:

- A `null` parent or selection is `None`.
- JavaScript truthiness is explicit. `Truthy` treats `null` and `""` as falsy,
  and `ParentRef` is the parent link as `if (!parentId)` sees it.
- Export and import compare strictly against `null`.
- Numbers are `real`. Square roots become squared comparisons, or a distance
  supplied with the fingers it measures (`IsDistance`).
- A DOM hit test is the datatype `Hit`: no element, or an element that is or
  is not inside a `.node`. `ClosestNode` is `!!el?.closest('.node')`.
  `PanSeesNode` is the pan handler's `el?.closest('.node') !== null`, which
  is also true when there is no element, because `undefined !== null`.
- `zoom` and `fitView` compute with `screen = pan + scale * world`. In
  `Viewport.Zoom` the screen offset is the pointer minus `origin`, the
  `left`/`top` that `zoom` reads from the container's bounding rectangle.

`TreeStore.WellFormed` is the invariant for lists the store builds. It says the
list is a root followed by nodes, each with a fresh non-empty id and the id of
an earlier node as parent. `TreeLemmas.WellFormedIsTree` derives the usual tree
facts from it. An imported file need not list parents first or have a single
root. `Forest.IsForest` states only the links: distinct non-empty ids, truthy
parent ids that resolve, and no cycles. `Forest.DeleteKeepsForest` proves the
cascade delete on that weaker invariant.

## Model

| member | source | states |
|---|---|---|
| TreeStore.FindIndex | app/src/app/services/app-state.service.ts:68-69 | `find` by id: the first position carrying the id, and none exactly when no node carries it |
| TreeStore.CreateRootNode | app/src/app/services/app-state.service.ts:43-61 | appends one parentless "Central Topic" node placed at (vw/2 - 75, vh/2 - 25), and selects it |
| TreeStore.AddChildNode | app/src/app/services/app-state.service.ts:67-90 | unknown parent: nothing changes and null is returned; otherwise appends one "New Idea" child of that parent at the parent's position plus the given offset, less (50, 20), and selects it |
| TreeStore.PruneMembers | app/src/app/services/app-state.service.ts:102-104 | the filter keeps exactly the nodes that are not descendants of the target, each as many times as it was listed, in their original order |
| TreeStore.DeleteSelectedNode | app/src/app/services/app-state.service.ts:92-109 | an empty id, an unknown id or a root changes nothing; otherwise exactly the target's subtree goes, every survivor keeps its multiplicity and its order, and the selection is cleared |
| TreeStore.SelectNode | app/src/app/services/app-state.service.ts:111-113 | selects the id without checking it; nodes unchanged |
| TreeLemmas.SelectThenDelete | app/src/app/services/app-state.service.ts:92-113 | selecting an id and deleting the selection removes the same nodes as deleting by id; the selection is cleared exactly when the delete applies |
| TreeStore.UpdateNodePosition | app/src/app/services/app-state.service.ts:115-122 | every node with the id gets the new x and y; every other field and every other node is unchanged |
| TreeStore.UpdateNodeText | app/src/app/services/app-state.service.ts:124-131 | every node with the id gets the new label; everything else unchanged |
| TreeStore.GetConnections | app/src/app/services/app-state.service.ts:149-157 | one (parent, child) pair per listed copy of a node whose truthy parent id resolves, in list order; the pair's parent is the first node carrying the child's parent id |
| TreeStore.ConnectionsMembers | app/src/app/services/app-state.service.ts:149-157 | a node has a connection iff its truthy parent id names a node of the list, one per listed copy; the children keep their list order |
| TreeStore.ConnectionsLinks | app/src/app/services/app-state.service.ts:152-154 | every connection pairs a child with the first listed node carrying its truthy parent id |
| TreeStore.ResetMap | app/src/app/services/app-state.service.ts:159-167 | afterwards the map is exactly one selected root, and is a valid tree iff the fresh id is non-empty |
| TreeLemmas.FuelSuffices | app/src/app/services/app-state.service.ts:133-147 | on an acyclic list the bounded walk agrees with any longer walk, so the bound never cuts the unbounded loop short |
| TreeLemmas.IsDescendantUnfold | app/src/app/services/app-state.service.ts:133-147 | descent is the reflexive-transitive closure of the parent link: each node descends from itself, a missing node from nothing else, and any other node from `a` iff its parent is `a` or descends from `a` |
| Forest.DescendantReaches | app/src/app/services/app-state.service.ts:133-147 | `isDescendant(c, a)` holds iff c is a, or c is listed and the ancestor walk from its parent stands on a within as many steps as there are nodes |
| Forest.DescendantReachesUnbounded | app/src/app/services/app-state.service.ts:133-147 | on an acyclic list, `isDescendant(c, a)` holds iff c is a, or c is listed and its unbounded ancestor walk ever stands on a |
| Forest.ChainBound | app/src/app/services/app-state.service.ts:140-145 | an ancestor walk that ends at all ends within one step more than there are nodes, by pigeonhole over the ids it visits |
| Forest.NodeChainBound | app/src/app/services/app-state.service.ts:140-145 | with distinct ids, a node's ancestor walk that ends at all ends within as many steps as there are nodes |
| TreeLemmas.WellFormedIsTree | app/src/app/services/app-state.service.ts:43-90 | a list built by createRoot and addChild has one root (first), non-empty distinct ids, parents that resolve to earlier nodes, and no cycles |
| TreeLemmas.AddChildKeepsTree | app/src/app/services/app-state.service.ts:67-90 | adding a child under a fresh non-empty id keeps the tree a tree |
| TreeLemmas.DeleteKeepsTree | app/src/app/services/app-state.service.ts:92-109 | on a list in creation order, cascade delete keeps it in creation order; the root survives, the target is gone, and no survivor's parent id dangles |
| Forest.WellFormedIsForest | app/src/app/services/app-state.service.ts:43-90 | a list in creation order has distinct non-empty ids, parents that resolve and no cycles |
| Forest.DeleteKeepsForest | app/src/app/services/app-state.service.ts:92-109 | on any list of linked nodes, in any order and with any number of roots, cascade delete keeps distinct non-empty ids, resolving parents and acyclicity; exactly the same parentless nodes remain; the target is gone |
| TreeLemmas.UpdatesKeepTree | app/src/app/services/app-state.service.ts:115-131 | moving or relabelling never changes tree validity or the descendant relation |
| TreeLemmas.PositionLastWriteWins | app/src/app/services/app-state.service.ts:115-122 | a second position update of the same id overrides the first |
| TreeLemmas.ConnectionsOfTree | app/src/app/services/app-state.service.ts:149-157 | in a tree every node except the root gives exactly one connection, in list order |
| JsText.Trim | app/src/app/components/mindmap/mindmap.component.ts:142-144 | `trim()` is the slice of the string left after dropping a whitespace prefix and a whitespace suffix, and has no whitespace at either end |
| JsText.TrimOfAllSpace | app/src/app/components/mindmap/mindmap.component.ts:142-144 | a string of whitespace only trims to the empty string |
| JsText.AllSpaceOfEmptyTrim | app/src/app/components/mindmap/mindmap.component.ts:142-144 | a string that trims to the empty string is whitespace only |
| JsText.TrimEmptyIffAllSpace | app/src/app/components/mindmap/mindmap.component.ts:142-144 | `text.trim() !== ''` holds exactly when some character is not whitespace |
| JsText.TrimIdempotent | app/src/app/components/mindmap/mindmap.component.ts:153-155 | a trimmed label trims to itself |
| FileCodec.ExportNode | app/src/app/services/file.service.ts:63-77 | a record keeps id, parent, text and position; it is "root" and "bold" when the parent is null and "topic" and "normal" otherwise; colours #000000 on #ffffff, size 14, not collapsed |
| FileCodec.Export | app/src/app/services/file.service.ts:52-78 | no document iff the map is empty; otherwise version "1", title "Mind Map", both timestamps the export time, and one record per node in order with its id, parent, text, position, kind, weight, fixed colours and size, not collapsed |
| FileCodec.ImportNode | app/src/app/services/file.service.ts:114-120 | a record becomes a node with the same id, parent and text; a missing position or coordinate reads as 0; there is no size |
| FileCodec.FirstRoot | app/src/app/services/file.service.ts:126 | the first node whose parent is strictly null, or none when every node has a parent |
| FileCodec.Import | app/src/app/services/file.service.ts:104-134 | unparsable text and a document without a truthy version or a node array are rejected and the store is unchanged; otherwise every node is replaced and the first root selected, or the old selection kept when there is no root |
| FileCodec.RoundTrip | app/src/app/services/file.service.ts:52-129 | exporting a non-empty map and importing it restores every node's id, parent, text and position, in order; sizes are dropped |
| FileCodec.RoundTripOfTree | app/src/app/services/file.service.ts:114-129 | importing the export of a tree gives a tree with its root selected |
| FileCodec.ExportStable | app/src/app/services/file.service.ts:52-120 | export, then import, then export again gives the same document |
| FileCodec.CycleNeverEnds | app/src/app/services/app-state.service.ts:140-145 | on a list where a and b name each other as parent, the ancestor walk from either never reaches a falsy id and never meets c, for any number of steps |
| FileCodec.ImportAdmitsCycle | app/src/app/services/file.service.ts:109-123 | import accepts a file whose parent links form a cycle and stores it unchanged |
| FileCodec.ImportedCycleHangsDelete | app/src/app/services/app-state.service.ts:92-109 | deleting c from that map needs a descendant test whose source loop never exits; the bounded model deletes c and keeps r, a and b |
| Viewport.Zoom | app/src/app/components/mindmap/mindmap.component.ts:512-535 | the new scale is scale + delta clamped to [0.5, 3]; nothing changes when that is the current scale; without a container rectangle the pan is kept; with one, the pan is re-solved so that `(pointer - origin - pan) / scale` is the same before and after |
| Viewport.WheelZoom | app/src/app/components/mindmap/mindmap.component.ts:226-231 | scrolling down (deltaY > 0) sets the scale to scale - 0.1 clamped to [0.5, 3], never above the old scale; anything else sets it to scale + 0.1 clamped, never below the old scale; the pan is kept or re-solved around the pointer exactly as `zoom` does |
| Viewport.WheelUndo | app/src/app/components/mindmap/mindmap.component.ts:226-231 | one wheel notch up and one down at the same pointer restore the view when neither hits a scale limit |
| Viewport.PanBy | app/src/app/components/mindmap/mindmap.component.ts:334-351 | the pan moves by the pointer movement divided by the scale; the scale is unchanged |
| Viewport.PanComposes | app/src/app/components/mindmap/mindmap.component.ts:334-351 | two pan steps through an intermediate pointer position equal one step |
| Viewport.PinchScale | app/src/app/components/mindmap/mindmap.component.ts:250-256 | the initial scale times the distance ratio when that lies in [0.5, 3]; 0.5 when it falls below, 3 when it rises above |
| Viewport.PinchBackToStart | app/src/app/components/mindmap/mindmap.component.ts:250-256 | fingers back at their starting distance restore the starting scale |
| Viewport.ZoomUndo | app/src/app/components/mindmap/mindmap.component.ts:512-535 | zooming by delta and then by -delta at the same pointer, both unclamped, restores the view |
| Viewport.ResetView | app/src/app/components/mindmap/mindmap.component.ts:558-563 | scale 1 and no pan, which is within the scale range |
| Viewport.BoundingBox | app/src/app/components/mindmap/mindmap.component.ts:570-585 | the loop yields the smallest box holding every node's rectangle: it covers each one and each side touches one |
| Viewport.BoundingBoxUnique | app/src/app/components/mindmap/mindmap.component.ts:570-585 | there is only one such box |
| Viewport.BoundingBoxHasArea | app/src/app/components/mindmap/mindmap.component.ts:570-585 | with positive sizes the box has positive width and height, so the fit ratios are defined |
| Viewport.FitTo | app/src/app/components/mindmap/mindmap.component.ts:588-614 | the fitted scale is the largest scale up to 1 at which the scaled box fits the viewport less 20 on each side, or 0.5 when that is smaller; the box centre lands on the viewport centre |
| Viewport.FitsIffWithinRatios | app/src/app/components/mindmap/mindmap.component.ts:597-601 | the box scaled by s fits the viewport less 20 on each side iff s is at most both the width and the height ratio |
| Viewport.FitView | app/src/app/components/mindmap/mindmap.component.ts:565-615 | an empty map leaves the view alone; otherwise the result is the fit of the nodes' bounding box |
| Viewport.FitShowsEveryNode | app/src/app/components/mindmap/mindmap.component.ts:588-614 | under `screen = pan + scale * world`, when the map fits at scale 0.5 or more, every node's rectangle lands on screen at least 20 from each edge |
| Viewport.FitSingleNodeExample | app/src/app/components/mindmap/mindmap.component.ts:565-615 | one default node at the origin in a 1000x800 viewport fits at scale 1 with pan (450, 380) |
| Gestures.StartDragNode | app/src/app/components/mindmap/mindmap.component.ts:64-94 | a press on a node starts dragging that node from the pointer; a touch press also records the start point and re-arms the threshold; every other field is unchanged |
| Gestures.OnDocumentMouseMove | app/src/app/components/mindmap/mindmap.component.ts:361-376 | without a live drag of an existing node nothing changes; otherwise every copy of the dragged node moves by the pointer delta through `updateNodePosition` and the last pointer is updated; the view and the selection never change |
| Gestures.MouseDragFollowsPointer | app/src/app/components/mindmap/mindmap.component.ts:361-376 | the dragged node moves by the raw pointer delta, not scaled by zoom, and keeps its id, text, parent and size; other nodes stay put |
| Gestures.MouseDragComposes | app/src/app/components/mindmap/mindmap.component.ts:361-376 | two drag steps through an intermediate point equal one step to the final point |
| Gestures.ThresholdMatchesDistance | app/src/app/components/mindmap/mindmap.component.ts:388-392 | the squared-distance test agrees with the `Math.sqrt` distance > 5 test |
| Gestures.OnDocumentTouchMove | app/src/app/components/mindmap/mindmap.component.ts:378-409 | during a live drag of a listed node, a finger that is armed or past the 5-pixel threshold arms the drag, moves the node by its raw delta and becomes the last point, and nothing else changes; in every other case nothing changes; an armed drag stays armed |
| Gestures.TouchWithinThresholdDoesNotMove | app/src/app/components/mindmap/mindmap.component.ts:384-404 | a finger within 5 of its landing point never moves the node |
| Gestures.HandleTouchEnd | app/src/app/components/mindmap/mindmap.component.ts:186-221 | double tap iff the same node was tapped less than 300 ms ago at a positive time; a double tap clears the pending tap, any other tap becomes the pending one |
| Gestures.TapTimerExpired | app/src/app/components/mindmap/mindmap.component.ts:215-220 | the timer clears the pending tap only if it is still this node's; nothing else changes |
| Gestures.DoubleTapWindow | app/src/app/components/mindmap/mindmap.component.ts:186-221 | a second tap is a double tap exactly when it is on the same node, less than 300 ms later, and the first was not itself a double tap |
| Gestures.TimerCancelsDoubleTap | app/src/app/components/mindmap/mindmap.component.ts:186-221 | once the timer of a tap has fired, the next tap on that node is not a double tap |
| Gestures.OnTouchStart | app/src/app/components/mindmap/mindmap.component.ts:233-245 | two fingers record their distance and the current scale; any other count changes nothing |
| Gestures.OnTouchMove | app/src/app/components/mindmap/mindmap.component.ts:247-296 | two fingers pinch the scale only. One finger pans unless a node drag is live or the finger is on a node while a node is selected. Starting a pan clears the selection and does not move the view |
| Gestures.NodeTestsDisagreeOnNoElement | app/src/app/components/mindmap/mindmap.component.ts:262-263 | the pan's node test `touchEl?.closest('.node') !== null` and the `!!el?.closest('.node')` test of lines 426 and 468 differ exactly when no element is under the finger, where the pan test says "on a node" |
| Gestures.NoElementBlocksPan | app/src/app/components/mindmap/mindmap.component.ts:257-268 | with a node selected and no drag, a one-finger move over no element changes nothing, while one over open canvas starts a pan and clears the selection |
| Gestures.StopPanning | app/src/app/components/mindmap/mindmap.component.ts:298-310 | host touchend and touchcancel end panning and change nothing else |
| Gestures.HostMouseUpStopsPanning | app/src/app/components/mindmap/mindmap.component.ts:506-510 | the host mouseup ends panning and changes nothing else; a node drag keeps going |
| Gestures.OnMouseDown | app/src/app/components/mindmap/mindmap.component.ts:312-331 | a press off every node clears the selection and starts panning from the pointer; a press on a node changes nothing |
| Gestures.OnMouseMove | app/src/app/components/mindmap/mindmap.component.ts:333-351 | while panning, the pan follows the pointer divided by the scale; otherwise nothing changes |
| Gestures.OnDocumentMouseUp | app/src/app/components/mindmap/mindmap.component.ts:353-359 | whatever the state, afterwards no node is dragged and nothing pans; every other field is unchanged |
| Gestures.OnDocumentTouchStart | app/src/app/components/mindmap/mindmap.component.ts:417-437 | a one-finger touch records its start, whether `closest('.node')` found a node, and whether it began strictly inside the navbar; nothing else changes, and any other finger count changes nothing |
| Gestures.OnDocumentTouchEnd | app/src/app/components/mindmap/mindmap.component.ts:439-504 | ending a node drag clears the drag flags and keeps the selection. When the last finger lifts, the selection is cleared iff the deselection rule holds, and touch tracking resets. A failed hit test changes nothing |
| Gestures.NavbarStartDoesNotPreserveSelection | app/src/app/components/mindmap/mindmap.component.ts:471-486 | whether a touch began on the navbar never changes what its end does to the store, so one that ends on open canvas still clears the selection |
| Gestures.TouchEndKeepsSelection | app/src/app/components/mindmap/mindmap.component.ts:484-486 | a touch that began on a node, or ends on a node or a clickable element, never clears the selection |
| Gestures.AddChildOfSelected | app/src/app/components/mindmap/mindmap.component.ts:119-124 | adds a child only under a truthy selected id |
| Gestures.DeleteSelected | app/src/app/components/mindmap/mindmap.component.ts:126-131 | deletes only for a truthy selected id |
| Gestures.OnContentEdit | app/src/app/components/mindmap/mindmap.component.ts:137-145 | an all-whitespace label is ignored; any other label is stored exactly as typed |
| Gestures.FinishEditNode | app/src/app/components/mindmap/mindmap.component.ts:147-165 | no element: nothing happens. A label with a non-space character is stored trimmed, and the stored label is non-empty with no edge whitespace. A blank label changes nothing and the element shows the stored label again |
| Gestures.Dispatch | app/src/app/components/mindmap/mindmap.component.ts:226-510 | every event keeps the scale within [0.5, 3], so no sequence of events leaves it |
| Gestures.TouchDragLatches | app/src/app/components/mindmap/mindmap.component.ts:378-448 | an armed touch drag stays armed through every event except the document touch end of a drag and a new touch press on a node |
| Gestures.EventsKeepNodeCount | app/src/app/components/mindmap/mindmap.component.ts:226-510 | no canvas event adds or removes nodes; only the two document move handlers touch the node list |

## Left out

- Persistence is not modelled: `localStorage` loading and `saveState`. Every operation's effect on the in-memory store is modelled.
- Id generation (`Date.now()` plus `Math.random()`) and the random choice of one of eight directions are inputs. `AddChildNode` takes the fresh id and the (cos, sin) x 120 offset as parameters.
- `window.innerWidth`/`innerHeight`, `Date.now()`, and DOM hit tests are inputs of the handlers. The hit tests are `elementFromPoint`/`closest('.node')`, the `matches(...)` clickable test and the navbar `getBoundingClientRect`.
- The `setTimeout` of a tap is the separate event `TapTimer`. When it fires relative to other events is left to the caller.
- Floating point is not modelled: rounding, `Infinity` and `NaN`. `fitView` starts its box at plus or minus `Infinity`; the model starts from the first node, which gives the same box for a non-empty map.
- Viewport.Zoom: `origin` is the `left`/`top` of the container's `getBoundingClientRect()`, taken as given. The transform is applied to that same element, so the rectangle may already include the pan and scale; whether it does depends on the template and stylesheet, which are not part of this model. The model promises the source's arithmetic for the given `origin`, not that the drawn point stays under the pointer.
- Viewport.FitShowsEveryNode: "on screen" means under `screen = pan + scale * world`, which holds when the transform is applied about the container's top-left corner (`transform-origin: 0 0`). The stylesheet that decides this is not part of this model.
- Viewport.FitView: requires positive node sizes. `width || 100` maps a zero size to the default, but a negative stored size would flip the box, and no code path creates one.
- Gestures.Dispatch: requires the pinch-start distance to be positive. Two fingers at the same point make the source divide by zero.
- Gestures.OnTouchMove: a two-finger move before any two-finger start divides by the initial distance of 0. Browsers always send the start first.
- `startDragNode` with a touch event that has no touches falls into the mouse branch and reads undefined coordinates. The model's `isTouch` means "a touch event with at least one touch".
- `TreeStore.IsDescendant` bounds the ancestor walk by the list length. The source's loop has no bound (see Findings); `TreeLemmas.FuelSuffices` and `Forest.DescendantReachesUnbounded` show the bound changes nothing on acyclic lists.
- Rendering and presentation are not modelled: `getConnectionPath`, `updateTransform`, the `panning` class, `preventDefault`/`stopPropagation`, focus and text-range selection on double tap, `handleEditKeyDown` beyond its call of `finishEditNode`, change detection.
- Not modelled: the navbar, help modal, app shell and `main.ts`, and the file download/read plumbing (`Blob`, `FileReader`, `JSON.stringify`/`JSON.parse`). A parse failure is modelled as the input `None`.
- File fields the code never writes or reads are not modelled: `author`, `description`, `tags` and the metadata `extra`. Export writes the per-node `extra` as an empty object; the model leaves it out. Style values are written on export and ignored on import, as the source does.
- FileCodec.Export: the two `new Date().toISOString()` reads for `created` and `modified` are one input `now`, so the model always gives them the same value; the source can differ by the tick between the two reads.
- The computed `shouldPreserveSelection` in `onDocumentTouchEnd` is never used, and `touchedNavbarButton` is only ever reset. The model follows the condition the code actually tests (`ShouldDeselect`); `NavbarStartDoesNotPreserveSelection` exhibits the consequence.
- FileCodec.Import: the type annotation `MindMapFile` is not checked at run time. Records are modelled with their declared fields; a record field of an unexpected type is not modelled.

## Findings

| source | as written | input that shows it | evidently intended | confidence | as-written member | corrected member |
|---|---|---|---|---|---|---|
| app/src/app/services/app-state.service.ts:140-145 | the ancestor walk of `isDescendant` loops `while (currentId)` with no bound, and import accepts any parent links | import a file with root r, child c of r, and nodes a and b naming each other as parent; then delete c. The filter's test `isDescendant("a", "c")` walks b, a, b, ... forever | the walk stops, and the delete removes c's subtree only | medium; not executed | FileCodec.CycleNeverEnds | TreeLemmas.FuelSuffices |

=== FILE: file_codec.dfy ===
/**
 * The `.mind` file codec (app/src/app/services/file.service.ts): the
 * mapping between live nodes and the versioned document's node records.
 *
 * JSON text, the download and the file reader are not modelled: export
 * yields the document value that is stringified, and import receives the
 * value `JSON.parse` produced, or `None` when the text did not parse.
 */
module FileCodec {
  import opened Wrappers
  import opened TreeStore
  import TreeLemmas

  datatype Position = Position(x: Option<real>, y: Option<real>)

  datatype Style = Style(color: string, backgroundColor: string, fontSize: int, fontWeight: string)

  /** A node as the document stores it; `position` may be absent in a hand-written file. */
  datatype FileNode = FileNode(
    id: string,
    parentId: Option<string>,
    text: string,
    kind: string,
    position: Option<Position>,
    style: Style,
    collapsed: bool)

  datatype Metadata = Metadata(title: string, created: string, modified: string)

  /** The parsed `nodes` member: absent/null, present but not an array, or an array. */
  datatype NodeList = Missing | NotAList | List(items: seq<FileNode>)

  /** The parsed document; `version` is `None` when absent or null. */
  datatype Document = Document(version: Option<string>, metadata: Metadata, nodes: NodeList)

  datatype ImportError = ParseFailed | InvalidFormat

  /** The store after an import attempt and the error it was rejected with, if any. */
  datatype Imported = Imported(store: Store, error: Option<ImportError>)

  const FormatVersion: string := "1"
  const DefaultTitle: string := "Mind Map"
  const RootKind: string := "root"
  const TopicKind: string := "topic"
  const Bold: string := "bold"
  const Normal: string := "normal"
  const TextColor: string := "#000000"
  const BackgroundColor: string := "#ffffff"
  const FontSize: int := 14

  /** One live node as exported: kind and weight follow root-ness, styling is fixed. */
  function ExportNode(n: Node): (f: FileNode)
    ensures f.id == n.id && f.parentId == n.parentId && f.text == n.text
    ensures f.position == Some(Position(Some(n.x), Some(n.y)))
    ensures f.kind == RootKind <==> n.parentId.None?
    ensures f.style.fontWeight == Bold <==> n.parentId.None?
    ensures n.parentId.Some? ==> f.kind == TopicKind && f.style.fontWeight == Normal
    ensures f.style.color == TextColor && f.style.backgroundColor == BackgroundColor && f.style.fontSize == FontSize
    ensures !f.collapsed
  {
    var isRoot := n.parentId.None?;
    FileNode(n.id, n.parentId, n.text,
             if isRoot then RootKind else TopicKind,
             Some(Position(Some(n.x), Some(n.y))),
             Style(TextColor, BackgroundColor, FontSize, if isRoot then Bold else Normal),
             false)
  }

  /**
   * `export`: nothing for an empty map; otherwise a version "1" document
   * with one record per node, in order. `now` stands for the ISO timestamp.
   */
  function Export(ns: seq<Node>, now: string): (r: Option<Document>)
    ensures r.None? <==> |ns| == 0
    ensures r.Some? ==>
      && r.value.version == Some(FormatVersion)
      && r.value.metadata == Metadata(DefaultTitle, now, now)
      && r.value.nodes.List?
      && |r.value.nodes.items| == |ns|
      && forall i | 0 <= i < |ns| ::
           var f := r.value.nodes.items[i];
           && f.id == ns[i].id && f.parentId == ns[i].parentId && f.text == ns[i].text
           && f.position == Some(Position(Some(ns[i].x), Some(ns[i].y)))
           && (f.kind == RootKind <==> ns[i].parentId.None?)
           && (f.style.fontWeight == Bold <==> ns[i].parentId.None?)
           && (ns[i].parentId.Some? ==> f.kind == TopicKind && f.style.fontWeight == Normal)
           && f.style.color == TextColor && f.style.backgroundColor == BackgroundColor && f.style.fontSize == FontSize
           && !f.collapsed
  {
    if |ns| == 0 then None
    else
      var items := seq(|ns|, i requires 0 <= i < |ns| => ExportNode(ns[i]));
      Some(Document(Some(FormatVersion), Metadata(DefaultTitle, now, now), List(items)))
  }

  /** `position?.x || 0`: a missing coordinate reads as 0. */
  function Coordinate(c: Option<real>): real {
    c.GetOr(0.0)
  }

  /** One document record flattened to the live shape; no width or height. */
  function ImportNode(f: FileNode): (n: Node)
    ensures n.id == f.id && n.parentId == f.parentId && n.text == f.text
    ensures f.position.None? ==> n.x == 0.0 && n.y == 0.0
    ensures f.position.Some? ==> n.x == Coordinate(f.position.value.x) && n.y == Coordinate(f.position.value.y)
    ensures n.width.None? && n.height.None?
  {
    var x := if f.position.Some? then Coordinate(f.position.value.x) else 0.0;
    var y := if f.position.Some? then Coordinate(f.position.value.y) else 0.0;
    Node(f.id, f.text, x, y, f.parentId, None, None)
  }

  /** The first node whose parent is strictly null (`find(n => n.parentId === null)`). */
  function FirstRoot(ns: seq<Node>): (r: Option<nat>)
    ensures r.Some? ==> r.value < |ns| && ns[r.value].parentId.None?
    ensures r.Some? ==> forall k | 0 <= k < r.value :: ns[k].parentId.Some?
    ensures r.None? ==> forall k | 0 <= k < |ns| :: ns[k].parentId.Some?
    decreases |ns|
  {
    if |ns| == 0 then None
    else if ns[0].parentId.None? then Some(0)
    else
      match FirstRoot(ns[1..])
      case None => None
      case Some(k) => Some(k + 1)
  }

  /** The validation of `import`: a truthy version and an array of nodes. */
  predicate ValidDocument(d: Document) {
    Truthy(d.version) && d.nodes.List?
  }

  /**
   * `import`: rejects unparsable text and documents without a version or a
   * node array, leaving the store alone; otherwise replaces every node and
   * selects the first root, keeping the old selection when there is none.
   */
  function Import(s: Store, parsed: Option<Document>): (r: Imported)
    ensures parsed.None? ==> r == Imported(s, Some(ParseFailed))
    ensures parsed.Some? && !ValidDocument(parsed.value) ==> r == Imported(s, Some(InvalidFormat))
    ensures r.error.None? <==> parsed.Some? && ValidDocument(parsed.value)
    ensures r.error.None? ==>
      var items := parsed.value.nodes.items;
      && |r.store.nodes| == |items|
      && (forall i | 0 <= i < |items| :: r.store.nodes[i] == ImportNode(items[i]))
      && (FirstRoot(r.store.nodes).Some? ==> r.store.selected == Some(r.store.nodes[FirstRoot(r.store.nodes).value].id))
      && (FirstRoot(r.store.nodes).None? ==> r.store.selected == s.selected)
  {
    match parsed
    case None => Imported(s, Some(ParseFailed))
    case Some(d) =>
      if !ValidDocument(d) then Imported(s, Some(InvalidFormat))
      else
        var items := d.nodes.items;
        var ns := seq(|items|, i requires 0 <= i < |items| => ImportNode(items[i]));
        var selected := match FirstRoot(ns) case None => s.selected case Some(k) => Some(ns[k].id);
        Imported(Store(ns, selected), None)
  }

  /** A node without its optional size: what survives a trip through a file. */
  function Unsized(n: Node): Node {
    n.(width := None, height := None)
  }

  /**
   * Exporting a non-empty map and importing the result gives back every
   * node's id, parent, label and position, in order; sizes are dropped.
   */
  lemma RoundTrip(s: Store, ns: seq<Node>, now: string)
    requires |ns| > 0
    ensures var r := Import(s, Export(ns, now));
      && r.error.None?
      && |r.store.nodes| == |ns|
      && forall i | 0 <= i < |ns| :: r.store.nodes[i] == Unsized(ns[i])
  {
  }

  /** Importing the export of a tree yields a tree again, with its root selected. */
  lemma RoundTripOfTree(s: Store, ns: seq<Node>, now: string)
    requires WellFormed(ns)
    ensures var r := Import(s, Export(ns, now));
      && WellFormed(r.store.nodes)
      && r.store.selected == Some(ns[0].id)
  {
    var r := Import(s, Export(ns, now));
    RoundTrip(s, ns, now);
    TreeLemmas.WellFormedIsTree(ns);
    assert TreeLemmas.SameSkeleton(ns, r.store.nodes);
    TreeLemmas.SkeletonKeepsShape(ns, r.store.nodes, "", "");
    assert FirstRoot(r.store.nodes) == Some(0);
  }

  /** Export does not look at sizes, so a second export after a round trip writes the same document. */
  lemma ExportStable(s: Store, ns: seq<Node>, now: string)
    requires |ns| > 0
    ensures Export(Import(s, Export(ns, now)).store.nodes, now) == Export(ns, now)
  {
    RoundTrip(s, ns, now);
    var back := Import(s, Export(ns, now)).store.nodes;
    var a := Export(back, now).value.nodes.items;
    var b := Export(ns, now).value.nodes.items;
    assert |a| == |b|;
    forall i | 0 <= i < |a| ensures a[i] == b[i] {
      assert a[i] == ExportNode(back[i]);
      assert b[i] == ExportNode(ns[i]);
    }
    assert a == b;
    assert |back| > 0;
  }

  // ------------------------------------------------------------ parent cycles in files

  /** A map a hand-edited file can carry: r is the root, c its child, and a and b name each other as parent. */
  function CyclicNodes(): seq<Node> {
    [Node("r", "r", 0.0, 0.0, None, None, None),
     Node("c", "c", 0.0, 0.0, Some("r"), None, None),
     Node("a", "a", 0.0, 0.0, Some("b"), None, None),
     Node("b", "b", 0.0, 0.0, Some("a"), None, None)]
  }

  /**
   * The ancestor walk from a or b, however long it runs, never reaches a
   * missing link and never meets c: the source's `while (currentId)` loop
   * in `isDescendant(a, c)` does not exit.
   */
  lemma {:induction false} CycleNeverEnds(fuel: nat)
    ensures !ChainEnds(CyclicNodes(), Some("a"), fuel) && !ChainEnds(CyclicNodes(), Some("b"), fuel)
    ensures !Walk(CyclicNodes(), Some("a"), "c", fuel) && !Walk(CyclicNodes(), Some("b"), "c", fuel)
    decreases fuel
  {
    var ns := CyclicNodes();
    assert ns[2].id == "a" && ns[3].id == "b";
    assert FindIndex(ns, "a") == Some(2);
    assert FindIndex(ns, "b") == Some(3);
    assert Step(ns, Some("a")) == Some("b") && Step(ns, Some("b")) == Some("a");
    if fuel > 0 {
      CycleNeverEnds(fuel - 1);
    }
  }

  /** Import checks no parent links: a file carrying the cyclic map is accepted as it stands. */
  lemma ImportAdmitsCycle(s: Store, now: string)
    ensures var r := Import(s, Export(CyclicNodes(), now));
      && r.error.None? && r.store.nodes == CyclicNodes()
      && DeleteApplies(r.store.nodes, "c")
      && !Acyclic(r.store.nodes)
  {
    var ns := CyclicNodes();
    RoundTrip(s, ns, now);
    var back := Import(s, Export(ns, now)).store.nodes;
    assert forall i | 0 <= i < |ns| :: Unsized(ns[i]) == ns[i];
    assert back == ns;
    assert FindIndex(ns, "c") == Some(1) by { assert ns[1].id == "c"; }
    assert ParentRef(ns[2]) == Some("b");
    CycleNeverEnds(|ns|);
  }

  /** Where each id of the cyclic map is found. */
  lemma CyclicLookups()
    ensures var ns := CyclicNodes();
      && Find(ns, "r") == Some(ns[0]) && Find(ns, "c") == Some(ns[1])
      && Find(ns, "a") == Some(ns[2]) && Find(ns, "b") == Some(ns[3])
  {
    var ns := CyclicNodes();
    assert FindIndex(ns, "c") == Some(1) by { assert ns[1].id == "c"; }
    assert FindIndex(ns, "a") == Some(2) by { assert ns[2].id == "a"; }
    assert FindIndex(ns, "b") == Some(3) by { assert ns[3].id == "b"; }
    assert FindIndex(ns, "r") == Some(0);
  }

  /** In the cyclic map, c is the only descendant of c, and c may be deleted. */
  lemma CyclicDescendantsOfC()
    ensures DeleteApplies(CyclicNodes(), "c")
    ensures var ns := CyclicNodes();
      !IsDescendant(ns, "r", "c") && !IsDescendant(ns, "a", "c") && !IsDescendant(ns, "b", "c")
  {
    var ns := CyclicNodes();
    CyclicLookups();
    CycleNeverEnds(4);
    assert |ns| == 4;
    assert ParentRef(ns[0]) == None;
    assert ParentRef(ns[2]) == Some("b") && ParentRef(ns[3]) == Some("a");
    assert IsDescendant(ns, "a", "c") == Walk(ns, Some("b"), "c", 4);
    assert IsDescendant(ns, "b", "c") == Walk(ns, Some("a"), "c", 4);
  }

  /**
   * On the cyclic map the source's `deleteSelectedNode("c")` never returns:
   * its descendant test for a walks a, b, a, ... without end. The bounded
   * walk of the model deletes c alone and keeps r, a and b.
   */
  lemma ImportedCycleHangsDelete(sel: Option<string>)
    ensures DeleteApplies(CyclicNodes(), "c")
    ensures forall fuel: nat :: !ChainEnds(CyclicNodes(), Some("b"), fuel) && !Walk(CyclicNodes(), Some("b"), "c", fuel)
    ensures var d := DeleteSelectedNode(Store(CyclicNodes(), sel), "c").nodes;
      && CyclicNodes()[0] in d && CyclicNodes()[2] in d && CyclicNodes()[3] in d
      && CyclicNodes()[1] !in d
  {
    var ns := CyclicNodes();
    forall fuel: nat ensures !ChainEnds(ns, Some("b"), fuel) && !Walk(ns, Some("b"), "c", fuel) {
      CycleNeverEnds(fuel);
    }
    CyclicDescendantsOfC();
    assert ns[0].id == "r" && ns[1].id == "c" && ns[2].id == "a" && ns[3].id == "b";
  }
}

=== FILE: forest.dfy ===
/**
 * Trees in any listing order, as an imported file may carry them: a child
 * can be listed before its parent and there can be several roots. The
 * store's own operations keep creation order (TreeStore.WellFormed); these
 * lemmas need only the links themselves.
 */
module Forest {
  import opened Wrappers
  import opened TreeStore
  import opened TreeLemmas

  // ------------------------------------------------------------ the walk, step by step

  /** Where the ancestor walk from `cur` stands after `k` steps. */
  function Visit(ns: seq<Node>, cur: Option<string>, k: nat): Option<string>
    decreases k
  {
    if k == 0 then cur else Visit(ns, Step(ns, cur), k - 1)
  }

  lemma {:induction false} VisitNext(ns: seq<Node>, cur: Option<string>, k: nat)
    ensures Visit(ns, cur, k + 1) == Step(ns, Visit(ns, cur, k))
    decreases k
  {
    if k > 0 {
      VisitNext(ns, Step(ns, cur), k - 1);
    }
  }

  /** The walk ends within `f` steps exactly when it stands on no id after `f` steps. */
  lemma {:induction false} ChainEndsVisit(ns: seq<Node>, cur: Option<string>, f: nat)
    ensures ChainEnds(ns, cur, f) <==> Visit(ns, cur, f).None?
    decreases f
  {
    if f > 0 {
      ChainEndsVisit(ns, Step(ns, cur), f - 1);
    }
  }

  /** Two equal positions make the walk repeat itself from there on. */
  lemma {:induction false} VisitPeriodic(ns: seq<Node>, cur: Option<string>, a: nat, b: nat, k: nat)
    requires Visit(ns, cur, a) == Visit(ns, cur, b)
    ensures Visit(ns, cur, a + k) == Visit(ns, cur, b + k)
    decreases k
  {
    if k > 0 {
      VisitPeriodic(ns, cur, a, b, k - 1);
      VisitNext(ns, cur, a + k - 1);
      VisitNext(ns, cur, b + k - 1);
    }
  }

  /** A walk that returns to an id it stood on, without ending on the way, never ends. */
  lemma {:induction false} RepeatNeverEnds(ns: seq<Node>, cur: Option<string>, a: nat, b: nat, n: nat)
    requires a < b && Visit(ns, cur, a) == Visit(ns, cur, b)
    requires forall j | 0 <= j <= b :: Visit(ns, cur, j).Some?
    ensures Visit(ns, cur, n).Some?
    decreases n
  {
    if n > b {
      VisitPeriodic(ns, cur, a, b, n - b);
      RepeatNeverEnds(ns, cur, a, b, a + n - b);
    }
  }

  /** A walk that stands on no id stays there. */
  lemma {:induction false} VisitStaysEnded(ns: seq<Node>, cur: Option<string>, m: nat, j: nat)
    requires Visit(ns, cur, m).None?
    ensures Visit(ns, cur, m + j).None?
    decreases j
  {
    if j > 0 {
      VisitStaysEnded(ns, cur, m, j - 1);
      VisitNext(ns, cur, m + j - 1);
    }
  }

  /** The bounded walk meets `a` exactly when one of its first `f + 1` positions is `a`. */
  lemma {:induction false} WalkReaches(ns: seq<Node>, cur: Option<string>, a: string, f: nat)
    ensures Walk(ns, cur, a, f) <==> exists k | 0 <= k <= f :: Visit(ns, cur, k) == Some(a)
    decreases f
  {
    if cur.None? {
      forall k | 0 <= k <= f ensures Visit(ns, cur, k).None? {
        VisitStaysEnded(ns, cur, 0, k);
      }
    } else if f > 0 {
      WalkReaches(ns, Step(ns, cur), a, f - 1);
      if Walk(ns, cur, a, f) {
        if cur == Some(a) {
          assert Visit(ns, cur, 0) == Some(a);
        } else {
          var k :| 0 <= k <= f - 1 && Visit(ns, Step(ns, cur), k) == Some(a);
          assert Visit(ns, cur, k + 1) == Some(a);
        }
        assert exists k | 0 <= k <= f :: Visit(ns, cur, k) == Some(a);
      }
      forall k | 0 <= k <= f && Visit(ns, cur, k) == Some(a) ensures Walk(ns, cur, a, f) {
        if k > 0 {
          assert Visit(ns, Step(ns, cur), k - 1) == Some(a);
          assert exists j | 0 <= j <= f - 1 :: Visit(ns, Step(ns, cur), j) == Some(a);
        }
      }
      assert (exists k | 0 <= k <= f :: Visit(ns, cur, k) == Some(a)) ==> Walk(ns, cur, a, f);
    } else {
      assert Visit(ns, cur, 0) == cur;
    }
  }

  /**
   * `isDescendant` as the `while (currentId)` loop means it, for walks of at
   * most |ns| steps: the node itself, or a listed node whose ancestor walk
   * stands on `ancestorId` within |ns| steps.
   */
  lemma DescendantReaches(ns: seq<Node>, c: string, a: string)
    ensures IsDescendant(ns, c, a) <==>
      c == a || (Find(ns, c).Some? && exists k | 0 <= k <= |ns| :: Visit(ns, ParentRef(Find(ns, c).value), k) == Some(a))
  {
    if c != a && Find(ns, c).Some? {
      WalkReaches(ns, ParentRef(Find(ns, c).value), a, |ns|);
    }
  }

  /** On an acyclic list a walk never stands on an id after more than |ns| steps. */
  lemma AcyclicWalksEnd(ns: seq<Node>, c: string, k: nat)
    requires Acyclic(ns) && Find(ns, c).Some? && k >= |ns|
    ensures Visit(ns, ParentRef(Find(ns, c).value), k).None?
  {
    var p := ParentRef(Find(ns, c).value);
    var i := FindIndex(ns, c).value;
    assert ChainEnds(ns, ParentRef(ns[i]), |ns|);
    ChainEndsVisit(ns, p, |ns|);
    VisitStaysEnded(ns, p, |ns|, k - |ns|);
  }

  /**
   * The unbounded loop itself, on an acyclic list: `c` descends from `a`
   * iff it is `a` or a listed node whose ancestor walk stands on `a` after
   * some number of steps.
   */
  lemma DescendantReachesUnbounded(ns: seq<Node>, c: string, a: string)
    requires Acyclic(ns)
    ensures IsDescendant(ns, c, a) <==>
      c == a || (Find(ns, c).Some? && exists k: nat :: Visit(ns, ParentRef(Find(ns, c).value), k) == Some(a))
  {
    DescendantReaches(ns, c, a);
    if c != a && Find(ns, c).Some? {
      var p := ParentRef(Find(ns, c).value);
      if k: nat :| Visit(ns, p, k) == Some(a) {
        if k > |ns| {
          AcyclicWalksEnd(ns, c, k);
        }
      }
    }
  }

  // ------------------------------------------------------------ counting

  lemma {:induction false} DistinctCard<T>(vs: seq<T>)
    requires forall a, b | 0 <= a < b < |vs| :: vs[a] != vs[b]
    ensures |set x | x in vs| == |vs|
    decreases |vs|
  {
    if |vs| > 0 {
      var init := vs[..|vs| - 1];
      DistinctCard(init);
      assert (set x | x in vs) == (set x | x in init) + {vs[|vs| - 1]};
      assert vs[|vs| - 1] !in init;
    }
  }

  lemma {:induction false} IdsCard(ns: seq<Node>)
    ensures |Ids(ns)| <= |ns|
    decreases |ns|
  {
    if |ns| > 0 {
      var init := ns[..|ns| - 1];
      IdsCard(init);
      assert Ids(ns) == Ids(init) + {ns[|ns| - 1].id};
    }
  }

  lemma SubsetCard<T>(a: set<T>, b: set<T>)
    requires a <= b
    ensures |a| <= |b|
  {
    assert b == a + (b - a);
  }

  // ------------------------------------------------------------ the bound

  /**
   * Pigeonhole: a walk that ends at all ends within |ns| + 1 steps, since
   * a longer one would stand on some id of the list twice and go round
   * forever.
   */
  lemma ChainBound(ns: seq<Node>, cur: Option<string>, f: nat)
    requires ChainEnds(ns, cur, f)
    ensures ChainEnds(ns, cur, |ns| + 1)
  {
    var n := |ns| + 1;
    ChainEndsVisit(ns, cur, n);
    if Visit(ns, cur, n).Some? {
      forall j | 0 <= j <= n ensures Visit(ns, cur, j).Some? {
        if Visit(ns, cur, j).None? {
          ChainEndsVisit(ns, cur, j);
          ChainEndsMono(ns, cur, j, n);
        }
      }
      var vs := seq(n, j requires 0 <= j < n => Visit(ns, cur, j).value);
      forall j | 0 <= j < n ensures vs[j] in Ids(ns) {
        VisitNext(ns, cur, j);
        assert Find(ns, vs[j]).Some?;
      }
      var seen := set x | x in vs;
      assert seen <= Ids(ns);
      SubsetCard(seen, Ids(ns));
      IdsCard(ns);
      if forall a, b | 0 <= a < b < |vs| :: vs[a] != vs[b] {
        DistinctCard(vs);
        assert false;
      }
      var a, b :| 0 <= a < b < |vs| && vs[a] == vs[b];
      RepeatNeverEnds(ns, cur, a, b, f);
      ChainEndsVisit(ns, cur, f);
      assert false;
    }
  }

  /**
   * With distinct ids, the ancestor walk from a node's parent that ends at
   * all ends within |ns| steps: the bound of the descendant test never
   * cuts an ending walk short.
   */
  lemma NodeChainBound(ns: seq<Node>, i: nat, f: nat)
    requires DistinctIds(ns) && i < |ns|
    requires ChainEnds(ns, ParentRef(ns[i]), f)
    ensures ChainEnds(ns, ParentRef(ns[i]), |ns|)
  {
    var start := Some(ns[i].id);
    FindDistinct(ns, i);
    assert Step(ns, start) == ParentRef(ns[i]);
    assert ChainEnds(ns, start, f + 1);
    ChainBound(ns, start, f + 1);
  }

  // ------------------------------------------------------------ delete on any tree

  /**
   * A list of linked nodes: distinct non-empty ids, every truthy parent id
   * names a listed node, and no ancestor walk cycles. Listing order is free
   * and several roots are allowed.
   */
  predicate IsForest(ns: seq<Node>) {
    && DistinctIds(ns)
    && (forall i | 0 <= i < |ns| :: ns[i].id != "")
    && (forall i | 0 <= i < |ns| :: ParentRef(ns[i]).Some? ==> ParentRef(ns[i]).value in Ids(ns))
    && Acyclic(ns)
  }

  /** Every list the store builds is such a list. */
  lemma WellFormedIsForest(ns: seq<Node>)
    requires WellFormed(ns)
    ensures IsForest(ns)
  {
    WellFormedIsTree(ns);
    forall i | 0 <= i < |ns| ensures ns[i].id != "" {
      WellFormedFacts(ns);
    }
    forall i | 0 <= i < |ns| && ParentRef(ns[i]).Some? ensures ParentRef(ns[i]).value in Ids(ns) {
      var j := FindIndex(ns, ns[i].parentId.value).value;
    }
  }

  /** Filtering keeps ids distinct. */
  lemma {:induction false} PruneDistinct(all: seq<Node>, t: string, ns: seq<Node>)
    requires DistinctIds(ns)
    ensures DistinctIds(Prune(all, t, ns))
    decreases |ns|
  {
    if |ns| > 0 {
      var init := ns[..|ns| - 1];
      var last := ns[|ns| - 1];
      PruneDistinct(all, t, init);
      var kept := Prune(all, t, init);
      if !IsDescendant(all, last.id, t) {
        PruneMembership(all, t, init);
        forall i | 0 <= i < |kept| ensures kept[i].id != last.id {
          assert kept[i] in init;
          var j :| 0 <= j < |init| && init[j] == kept[i];
          assert ns[j] == kept[i];
        }
      }
    }
  }

  /**
   * A walk that ends in the full list without meeting `t` follows the same
   * ids among the survivors, so it ends there too.
   */
  lemma {:induction false} SurvivorWalk(all: seq<Node>, t: string, kept: seq<Node>, cur: Option<string>, f: nat)
    requires IsForest(all) && DistinctIds(kept)
    requires forall n :: n in kept <==> n in all && !IsDescendant(all, n.id, t)
    requires f <= |all| && ChainEnds(all, cur, f) && !Walk(all, cur, t, f)
    ensures ChainEnds(kept, cur, f)
    decreases f
  {
    if cur.Some? {
      var id := cur.value;
      match Find(all, id)
      case None =>
        forall n | n in kept ensures n.id != id {
          InIds(all, n);
        }
      case Some(m) =>
        var k := FindIndex(all, id).value;
        assert m == all[k];
        WalkFuelStable(all, ParentRef(m), t, f - 1, |all|);
        assert !IsDescendant(all, m.id, t);
        assert m in kept;
        var j :| 0 <= j < |kept| && kept[j] == m;
        FindDistinct(kept, j);
        SurvivorWalk(all, t, kept, ParentRef(m), f - 1);
    }
  }

  /** Every survivor's ancestor walk ends among the survivors within their number. */
  lemma SurvivorsAcyclic(all: seq<Node>, t: string)
    requires IsForest(all)
    ensures Acyclic(Prune(all, t, all))
  {
    var kept := Prune(all, t, all);
    PruneMembership(all, t, all);
    PruneDistinct(all, t, all);
    forall i | 0 <= i < |kept| ensures ChainEnds(kept, ParentRef(kept[i]), |kept|) {
      var n := kept[i];
      var j :| 0 <= j < |all| && all[j] == n;
      FindDistinct(all, j);
      assert ChainEnds(all, ParentRef(all[j]), |all|);
      SurvivorWalk(all, t, kept, ParentRef(n), |all|);
      NodeChainBound(kept, i, |all|);
    }
  }

  /** A survivor's parent survives: otherwise the survivor would descend from `t`. */
  lemma SurvivorParents(all: seq<Node>, t: string)
    requires IsForest(all)
    ensures var kept := Prune(all, t, all);
      forall i | 0 <= i < |kept| :: ParentRef(kept[i]).Some? ==> ParentRef(kept[i]).value in Ids(kept)
  {
    var kept := Prune(all, t, all);
    PruneMembership(all, t, all);
    forall i | 0 <= i < |kept| && ParentRef(kept[i]).Some? ensures ParentRef(kept[i]).value in Ids(kept) {
      var n := kept[i];
      var p := ParentRef(n).value;
      var j :| 0 <= j < |all| && all[j] == n;
      FindDistinct(all, j);
      IsDescendantUnfold(all, n.id, t);
      assert !IsDescendant(all, p, t);
      assert p in Ids(all);
      var k := FindIndex(all, p).value;
      assert all[k] in kept;
      InIds(kept, all[k]);
    }
  }

  /** A root (no truthy parent) descends only from itself, so a delete that applies never removes one. */
  lemma RootsSurvive(all: seq<Node>, t: string)
    requires IsForest(all) && DeleteApplies(all, t)
    ensures forall n :: n in Prune(all, t, all) && ParentRef(n).None? <==> n in all && ParentRef(n).None?
  {
    PruneMembership(all, t, all);
    forall n | n in all && ParentRef(n).None? ensures !IsDescendant(all, n.id, t) {
      var j :| 0 <= j < |all| && all[j] == n;
      FindDistinct(all, j);
    }
  }

  /**
   * Cascade delete on any tree, in any listing order: the survivors are
   * again such a list, exactly the roots survive among the parentless
   * nodes, and the target is gone.
   */
  lemma DeleteKeepsForest(s: Store, selectedId: string)
    requires IsForest(s.nodes)
    ensures var r := DeleteSelectedNode(s, selectedId);
      && IsForest(r.nodes)
      && (forall n :: n in r.nodes && ParentRef(n).None? <==> n in s.nodes && ParentRef(n).None?)
      && (DeleteApplies(s.nodes, selectedId) ==> selectedId !in Ids(r.nodes))
  {
    if DeleteApplies(s.nodes, selectedId) {
      var all := s.nodes;
      var kept := Prune(all, selectedId, all);
      PruneMembership(all, selectedId, all);
      PruneDistinct(all, selectedId, all);
      forall i | 0 <= i < |kept| ensures kept[i].id != "" {
        assert kept[i] in all;
      }
      SurvivorParents(all, selectedId);
      SurvivorsAcyclic(all, selectedId);
      RootsSurvive(all, selectedId);
      TargetPruned(all, selectedId, all);
    }
  }
}

=== FILE: gestures.dfy ===
/**
 * The event handlers of the mind-map component
 * (app/src/app/components/mindmap/mindmap.component.ts): node dragging,
 * background panning, pinch zoom, double-tap detection, the touch-drag
 * threshold, end-of-gesture resets and the deselection rule, plus the
 * label-editing guards.
 *
 * DOM queries are inputs: a `Hit` is what `elementFromPoint` and
 * `closest('.node')` report, `clickable` is the answer of `matches(...)`,
 * rectangles those of
 * `getBoundingClientRect`, `now` that of `Date.now()`, and two-finger
 * distances are supplied together with the fingers they measure. A
 * `setTimeout` callback is the separate event `TapTimerExpired`.
 */
module Gestures {
  import opened Wrappers
  import opened JsText
  import opened TreeStore
  import opened TreeLemmas
  import opened Viewport

  const TouchDragThreshold: real := 5.0
  const DoubleTapDelay: int := 300
  /** A touch ending this close above the navbar's bottom edge counts as on the navbar. */
  const NavbarTolerance: real := 40.0

  datatype Rect = Rect(left: real, top: real, right: real, bottom: real)

  /** The component's gesture fields. */
  datatype Gesture = Gesture(
    isDragging: bool,
    draggedNodeId: Option<string>,
    lastMouse: Point,
    initialTouch: Point,
    isTouchDragging: bool,
    isPanning: bool,
    lastPan: Point,
    initialDistance: real,
    initialScale: real,
    lastTouchEndTime: int,
    lastTouchedNode: Option<string>,
    lastTouchStart: Option<Point>,
    touchStartedOnNode: bool,
    touchStartedOnNavbar: bool,
    touchedNavbarButton: bool)

  /** The component: the store it edits, its transform and its gesture fields. */
  datatype Canvas = Canvas(store: Store, view: View, g: Gesture)

  const Origin: Point := Point(0.0, 0.0)

  /** The field initialisers of the component. */
  const Idle: Gesture :=
    Gesture(false, None, Origin, Origin, false, false, Origin, 0.0, 1.0, 0, None, None, false, false, false)

  /**
   * The element under a finger: none, or an element that lies inside a node
   * (`closest('.node')` finds one) or does not.
   */
  datatype Hit = NoElement | Element(inNode: bool)

  /** `!!el?.closest('.node')`, the test of `onDocumentTouchStart` and `onDocumentTouchEnd`: no element is off-node. */
  predicate ClosestNode(h: Hit) {
    h.Element? && h.inNode
  }

  /** `el?.closest('.node') !== null`, the test of the host `touchmove`: `undefined !== null`, so no element is on a node. */
  predicate PanSeesNode(h: Hit) {
    match h
    case NoElement => true
    case Element(inNode) => inNode
  }

  /** The two node tests agree on every element and disagree exactly when the finger is over no element. */
  lemma NodeTestsDisagreeOnNoElement(h: Hit)
    ensures PanSeesNode(h) != ClosestNode(h) <==> h.NoElement?
    ensures h.NoElement? ==> PanSeesNode(h) && !ClosestNode(h)
  {
  }

  /**
   * What the hit tests of a document touch end report (`onNode` is
   * `ClosestNode` of the element there); `None` for the caught exception.
   */
  datatype TouchEndProbe = TouchEndProbe(end: Point, onNode: bool, clickable: bool, navbar: Option<Rect>)

  /** `d` is the Euclidean distance between `a` and `b` (the value `Math.sqrt` yields). */
  predicate IsDistance(d: real, a: Point, b: Point) {
    d >= 0.0 && d * d == (a.x - b.x) * (a.x - b.x) + (a.y - b.y) * (a.y - b.y)
  }

  // ------------------------------------------------------------ node drag

  /** `startDragNode`: a press on a node; a touch press also arms the drag threshold. */
  function StartDragNode(c: Canvas, nodeId: string, client: Point, isTouch: bool): (r: Canvas)
    ensures r.store == c.store && r.view == c.view
    ensures r.g.isDragging && r.g.draggedNodeId == Some(nodeId) && r.g.lastMouse == client
    ensures isTouch ==> !r.g.isTouchDragging && r.g.initialTouch == client
    ensures !isTouch ==> r.g.isTouchDragging == c.g.isTouchDragging && r.g.initialTouch == c.g.initialTouch
    ensures r.g.(isDragging := c.g.isDragging, draggedNodeId := c.g.draggedNodeId, lastMouse := c.g.lastMouse,
                 initialTouch := c.g.initialTouch, isTouchDragging := c.g.isTouchDragging) == c.g
  {
    var g := if isTouch then c.g.(initialTouch := client, isTouchDragging := false) else c.g;
    c.(g := g.(isDragging := true, draggedNodeId := Some(nodeId), lastMouse := client))
  }

  /** A mouse drag is live when a node is being dragged and the background is not being panned. */
  predicate DragActive(g: Gesture) {
    g.isDragging && Truthy(g.draggedNodeId) && !g.isPanning
  }

  /** Moves node `id` (every node carrying it) by the raw pointer delta, as the drag handlers do. */
  function MoveNodeBy(ns: seq<Node>, n: Node, from: Point, to: Point): seq<Node> {
    UpdateNodePosition(ns, n.id, n.x + (to.x - from.x), n.y + (to.y - from.y))
  }

  /** `onDocumentMouseMove`: while a drag is live the dragged node follows the pointer. */
  function OnDocumentMouseMove(c: Canvas, client: Point): (r: Canvas)
    ensures r.view == c.view && r.store.selected == c.store.selected
    ensures !DragActive(c.g) || Find(c.store.nodes, c.g.draggedNodeId.value).None? ==> r == c
    ensures DragActive(c.g) && Find(c.store.nodes, c.g.draggedNodeId.value).Some? ==>
      && r.g == c.g.(lastMouse := client)
      && r.store.nodes == MoveNodeBy(c.store.nodes, Find(c.store.nodes, c.g.draggedNodeId.value).value, c.g.lastMouse, client)
  {
    if !DragActive(c.g) then c
    else
      match Find(c.store.nodes, c.g.draggedNodeId.value)
      case None => c
      case Some(n) =>
        c.(store := c.store.(nodes := MoveNodeBy(c.store.nodes, n, c.g.lastMouse, client)),
           g := c.g.(lastMouse := client))
  }

  /**
   * The drag moves by the pointer's raw movement, not divided by the zoom:
   * every node carrying the dragged id lands at the first such node's
   * position plus the pointer delta and keeps every other field, and every
   * other node stays put.
   */
  lemma MouseDragFollowsPointer(c: Canvas, client: Point)
    requires DragActive(c.g) && Find(c.store.nodes, c.g.draggedNodeId.value).Some?
    ensures var n := Find(c.store.nodes, c.g.draggedNodeId.value).value;
      var r := OnDocumentMouseMove(c, client).store.nodes;
      && |r| == |c.store.nodes|
      && (forall i | 0 <= i < |r| && c.store.nodes[i].id == n.id ::
            r[i].x - n.x == client.x - c.g.lastMouse.x && r[i].y - n.y == client.y - c.g.lastMouse.y
            && r[i].text == c.store.nodes[i].text && r[i].parentId == c.store.nodes[i].parentId
            && r[i] == c.store.nodes[i].(x := r[i].x, y := r[i].y))
      && (forall i | 0 <= i < |r| && c.store.nodes[i].id != n.id :: r[i] == c.store.nodes[i])
  {
  }

  /** Dragging from `a` to `p` and then from `p` to `q` is dragging from `a` to `q`. */
  lemma MoveTwice(ns: seq<Node>, n: Node, m: Node, a: Point, p: Point, q: Point)
    requires m.id == n.id && m.x == n.x + (p.x - a.x) && m.y == n.y + (p.y - a.y)
    ensures MoveNodeBy(MoveNodeBy(ns, n, a, p), m, p, q) == MoveNodeBy(ns, n, a, q)
  {
    var l := MoveNodeBy(MoveNodeBy(ns, n, a, p), m, p, q);
    var r := MoveNodeBy(ns, n, a, q);
    assert m.x + (q.x - p.x) == n.x + (q.x - a.x) && m.y + (q.y - p.y) == n.y + (q.y - a.y);
    forall i | 0 <= i < |ns| ensures l[i] == r[i] { }
  }

  /** Two mouse-drag steps through an intermediate point are one step to the final point. */
  lemma MouseDragComposes(c: Canvas, p: Point, q: Point)
    requires DragActive(c.g)
    ensures OnDocumentMouseMove(OnDocumentMouseMove(c, p), q) == OnDocumentMouseMove(c, q)
  {
    var id := c.g.draggedNodeId.value;
    var ns := c.store.nodes;
    var once := OnDocumentMouseMove(c, p);
    FindSkeleton(ns, once.store.nodes, id);
    match Find(ns, id)
    case None =>
    case Some(n) =>
      var m := Find(once.store.nodes, id).value;
      assert m.id == n.id && m.x == n.x + (p.x - c.g.lastMouse.x) && m.y == n.y + (p.y - c.g.lastMouse.y);
      MoveTwice(ns, n, m, c.g.lastMouse, p, q);
  }

  /** The touch-drag threshold without a square root: distance > 5 iff squared distance > 25. */
  predicate ExceedsDragThreshold(dx: real, dy: real) {
    dx * dx + dy * dy > TouchDragThreshold * TouchDragThreshold
  }

  lemma ThresholdMatchesDistance(dx: real, dy: real, d: real)
    requires d >= 0.0 && d * d == dx * dx + dy * dy
    ensures ExceedsDragThreshold(dx, dy) <==> d > TouchDragThreshold
  {
    if d > TouchDragThreshold {
      MulMono(TouchDragThreshold, d, d);
      MulMono(TouchDragThreshold, TouchDragThreshold, d);
      assert d * d >= TouchDragThreshold * d > TouchDragThreshold * TouchDragThreshold;
    } else if d > 0.0 {
      MulMono(d, TouchDragThreshold, d);
      MulMono(d, TouchDragThreshold, TouchDragThreshold);
    }
  }

  /** A document touch move that moves the node: a live drag of a listed node that is armed or now past the threshold. */
  predicate TouchDragMoves(c: Canvas, touches: seq<Point>) {
    && DragActive(c.g) && |touches| > 0
    && Find(c.store.nodes, c.g.draggedNodeId.value).Some?
    && (c.g.isTouchDragging || ExceedsDragThreshold(touches[0].x - c.g.initialTouch.x, touches[0].y - c.g.initialTouch.y))
  }

  /**
   * `onDocumentTouchMove`: a touch on a node becomes a drag once the finger
   * has gone more than 5 from where it landed; from then on the node follows
   * the finger.
   */
  function OnDocumentTouchMove(c: Canvas, touches: seq<Point>): (r: Canvas)
    ensures r.view == c.view && r.store.selected == c.store.selected
    ensures c.g.isTouchDragging ==> r.g.isTouchDragging
    ensures !r.g.isTouchDragging ==> r == c
    ensures !c.g.isTouchDragging && r.g.isTouchDragging ==>
      |touches| > 0 && ExceedsDragThreshold(touches[0].x - c.g.initialTouch.x, touches[0].y - c.g.initialTouch.y)
    ensures r.g.isDragging == c.g.isDragging && r.g.draggedNodeId == c.g.draggedNodeId && r.g.isPanning == c.g.isPanning
    ensures r.store != c.store ==>
      && DragActive(c.g) && |touches| > 0 && r.g.isTouchDragging
      && Find(c.store.nodes, c.g.draggedNodeId.value).Some?
      && r.store.nodes == MoveNodeBy(c.store.nodes, Find(c.store.nodes, c.g.draggedNodeId.value).value, c.g.lastMouse, touches[0])
    ensures TouchDragMoves(c, touches) ==>
      && r.g == c.g.(isTouchDragging := true, lastMouse := touches[0])
      && r.store == c.store.(nodes := MoveNodeBy(c.store.nodes, Find(c.store.nodes, c.g.draggedNodeId.value).value,
                                                 c.g.lastMouse, touches[0]))
    ensures !TouchDragMoves(c, touches) ==> r == c
  {
    if !(DragActive(c.g) && |touches| > 0) then c
    else
      match Find(c.store.nodes, c.g.draggedNodeId.value)
      case None => c
      case Some(n) =>
        var t := touches[0];
        var dragging :=
          c.g.isTouchDragging || ExceedsDragThreshold(t.x - c.g.initialTouch.x, t.y - c.g.initialTouch.y);
        if !dragging then c
        else
          c.(store := c.store.(nodes := MoveNodeBy(c.store.nodes, n, c.g.lastMouse, t)),
             g := c.g.(isTouchDragging := true, lastMouse := t))
  }

  /** A finger that stays within 5 of where it landed on a node never moves the node. */
  lemma TouchWithinThresholdDoesNotMove(c: Canvas, touches: seq<Point>, d: real)
    requires !c.g.isTouchDragging && |touches| > 0
    requires IsDistance(d, touches[0], c.g.initialTouch) && d <= TouchDragThreshold
    ensures OnDocumentTouchMove(c, touches) == c
  {
    ThresholdMatchesDistance(touches[0].x - c.g.initialTouch.x, touches[0].y - c.g.initialTouch.y, d);
  }

  // ------------------------------------------------------------ double tap

  /**
   * `handleTouchEnd` on a node: a double tap (second result) iff the same
   * node was tapped less than 300 ms ago; a double tap clears the pending
   * tap, anything else makes this tap the pending one.
   */
  function HandleTouchEnd(g: Gesture, nodeId: string, now: int): (r: (Gesture, bool))
    ensures r.1 <==>
      g.lastTouchedNode == Some(nodeId) && g.lastTouchEndTime > 0 && now - g.lastTouchEndTime < DoubleTapDelay
    ensures r.1 ==> r.0 == g.(lastTouchedNode := None, lastTouchEndTime := 0)
    ensures !r.1 ==> r.0 == g.(lastTouchedNode := Some(nodeId), lastTouchEndTime := now)
  {
    if g.lastTouchedNode == Some(nodeId) && g.lastTouchEndTime > 0 && now - g.lastTouchEndTime < DoubleTapDelay then
      (g.(lastTouchedNode := None, lastTouchEndTime := 0), true)
    else
      (g.(lastTouchedNode := Some(nodeId), lastTouchEndTime := now), false)
  }

  /** The 300 ms timer of a tap on `nodeId`: clears the pending tap only if it is still that node's. */
  function TapTimerExpired(g: Gesture, nodeId: string): (r: Gesture)
    ensures g.lastTouchedNode == Some(nodeId) ==> r.lastTouchedNode.None? && r.lastTouchEndTime == 0
    ensures g.lastTouchedNode != Some(nodeId) ==> r == g
    ensures r.(lastTouchedNode := g.lastTouchedNode, lastTouchEndTime := g.lastTouchEndTime) == g
  {
    if g.lastTouchedNode == Some(nodeId) then g.(lastTouchedNode := None, lastTouchEndTime := 0) else g
  }

  /**
   * Two taps: on the same node less than 300 ms apart they make a double
   * tap; 300 ms or more apart, or on different nodes, they do not.
   */
  lemma DoubleTapWindow(g: Gesture, a: string, b: string, t1: int, t2: int)
    requires t1 > 0
    ensures var second := HandleTouchEnd(HandleTouchEnd(g, a, t1).0, b, t2).1;
      second <==> (a == b && !HandleTouchEnd(g, a, t1).1 && t2 - t1 < DoubleTapDelay)
  {
  }

  /** A timer that fires between two taps on the same node cancels the double tap. */
  lemma TimerCancelsDoubleTap(g: Gesture, n: string, t1: int, t2: int)
    requires !HandleTouchEnd(g, n, t1).1
    ensures !HandleTouchEnd(TapTimerExpired(HandleTouchEnd(g, n, t1).0, n), n, t2).1
  {
  }

  // ------------------------------------------------------------ pan and pinch

  /** The host `touchstart`: two fingers start a pinch from the current scale. */
  function OnTouchStart(c: Canvas, touches: seq<Point>, distance: real): (r: Canvas)
    ensures r.store == c.store && r.view == c.view
    ensures |touches| == 2 ==> r.g == c.g.(initialDistance := distance, initialScale := c.view.scale)
    ensures |touches| != 2 ==> r == c
  {
    if |touches| == 2 then c.(g := c.g.(initialDistance := distance, initialScale := c.view.scale)) else c
  }

  /**
   * The host `touchmove`: two fingers pinch; one finger pans the background
   * unless a node is being dragged, or the finger is on a node while some
   * node is selected. Starting a pan clears the selection. `onNode` is
   * `PanSeesNode` of the element under the finger.
   */
  function OnTouchMove(c: Canvas, touches: seq<Point>, distance: real, onNode: bool): (r: Canvas)
    requires c.view.scale > 0.0
    requires |touches| == 2 ==> c.g.initialDistance > 0.0
    ensures r.store.nodes == c.store.nodes
    ensures |touches| == 2 ==>
      && r.view == c.view.(scale := PinchScale(c.g.initialScale, c.g.initialDistance, distance))
      && r.g == c.g && r.store == c.store
    ensures |touches| == 1 && !c.g.isDragging && (!onNode || c.store.selected.None?) ==>
      && r.g == c.g.(isPanning := true, lastPan := touches[0])
      && (c.g.isPanning ==> r.view == PanBy(c.view, c.g.lastPan, touches[0]) && r.store == c.store)
      && (!c.g.isPanning ==> r.view == c.view && r.store.selected.None?)
    ensures |touches| == 1 && (c.g.isDragging || (onNode && c.store.selected.Some?)) ==> r == c
    ensures |touches| != 1 && |touches| != 2 ==> r == c
  {
    if |touches| == 2 then
      c.(view := c.view.(scale := PinchScale(c.g.initialScale, c.g.initialDistance, distance)))
    else if |touches| == 1 && !c.g.isDragging then
      var t := touches[0];
      if !onNode || c.store.selected.None? then
        var started :=
          if !c.g.isPanning then c.(store := c.store.(selected := None), g := c.g.(isPanning := true, lastPan := t))
          else c;
        assert PanBy(c.view, t, t) == c.view;
        started.(view := PanBy(started.view, started.g.lastPan, t), g := started.g.(lastPan := t))
      else c
    else c
  }

  /**
   * With a node selected, a one-finger move over no element at all does not
   * pan: the host `touchmove` takes the missing element for a node.
   */
  lemma NoElementBlocksPan(c: Canvas, t: Point, distance: real)
    requires InRange(c.view) && c.store.selected.Some? && !c.g.isDragging
    ensures Dispatch(c, TouchMove([t], distance, NoElement)) == c
    ensures !c.g.isPanning ==> Dispatch(c, TouchMove([t], distance, Element(false))).store.selected.None?
  {
  }

  /** The host `touchend`, `touchcancel` and `mouseup`: background panning stops. */
  function StopPanning(c: Canvas): (r: Canvas)
    ensures !r.g.isPanning
    ensures r.store == c.store && r.view == c.view && r.g.(isPanning := c.g.isPanning) == c.g
  {
    c.(g := c.g.(isPanning := false))
  }

  /** The host `mousedown`: a press on the background clears the selection and starts panning. */
  function OnMouseDown(c: Canvas, client: Point, onNode: bool): (r: Canvas)
    ensures onNode ==> r == c
    ensures !onNode ==>
      && r.store == c.store.(selected := None) && r.view == c.view
      && r.g == c.g.(isPanning := true, lastPan := client)
  {
    if onNode then c
    else c.(store := c.store.(selected := None), g := c.g.(isPanning := true, lastPan := client))
  }

  /** The host `mousemove`: while panning, the pan follows the pointer, scale-compensated. */
  function OnMouseMove(c: Canvas, client: Point): (r: Canvas)
    requires c.view.scale > 0.0
    ensures !c.g.isPanning ==> r == c
    ensures c.g.isPanning ==>
      && r.store == c.store
      && r.view.scale == c.view.scale
      && (r.view.panX - c.view.panX) * c.view.scale == client.x - c.g.lastPan.x
      && (r.view.panY - c.view.panY) * c.view.scale == client.y - c.g.lastPan.y
      && r.g == c.g.(lastPan := client)
  {
    if !c.g.isPanning then c
    else c.(view := PanBy(c.view, c.g.lastPan, client), g := c.g.(lastPan := client))
  }

  /** `document:mouseup`: every drag and pan flag is cleared, whatever the state. */
  function OnDocumentMouseUp(c: Canvas): (r: Canvas)
    ensures !r.g.isDragging && r.g.draggedNodeId.None? && !r.g.isPanning
    ensures r.store == c.store && r.view == c.view
    ensures r.g.(isDragging := c.g.isDragging, draggedNodeId := c.g.draggedNodeId, isPanning := c.g.isPanning) == c.g
  {
    c.(g := c.g.(isDragging := false, draggedNodeId := None, isPanning := false))
  }

  // ------------------------------------------------------------ touch end and deselection

  /** Strictly inside the rectangle, as `onDocumentTouchStart` tests it. */
  predicate StrictlyInside(p: Point, r: Rect) {
    p.y > r.top && p.y < r.bottom && p.x > r.left && p.x < r.right
  }

  /**
   * `document:touchstart`: a one-finger touch records where it started;
   * `onNode` is `ClosestNode` of the element under the finger.
   */
  function OnDocumentTouchStart(c: Canvas, touches: seq<Point>, onNode: bool, navbar: Option<Rect>): (r: Canvas)
    ensures r.store == c.store && r.view == c.view
    ensures |touches| == 1 ==>
      && r.g.lastTouchStart == Some(touches[0])
      && r.g.touchStartedOnNode == onNode
      && (r.g.touchStartedOnNavbar <==> navbar.Some? && StrictlyInside(touches[0], navbar.value))
    ensures r.g.(lastTouchStart := c.g.lastTouchStart, touchStartedOnNode := c.g.touchStartedOnNode,
                 touchStartedOnNavbar := c.g.touchStartedOnNavbar) == c.g
    ensures |touches| != 1 ==> r == c
  {
    if |touches| == 1 then
      var t := touches[0];
      c.(g := c.g.(lastTouchStart := Some(t), touchStartedOnNode := onNode,
                   touchStartedOnNavbar := navbar.Some? && StrictlyInside(t, navbar.value)))
    else c
  }

  /** Touch ended within 40 of the navbar's bottom edge or below it. */
  predicate InNavbarArea(p: TouchEndProbe) {
    p.navbar.Some? && p.end.y > p.navbar.value.bottom - NavbarTolerance
  }

  /**
   * The deselection rule of `onDocumentTouchEnd`: outside any node, not a
   * touch drag, not on a clickable element, not in the navbar area, and the
   * touch did not start on a node.
   */
  predicate ShouldDeselect(g: Gesture, p: TouchEndProbe) {
    !p.onNode && !g.isTouchDragging && !p.clickable && !InNavbarArea(p) && !g.touchStartedOnNode
  }

  /**
   * `document:touchend`: ending a node drag clears the drag flags and keeps
   * the selection; otherwise, once no finger is left, the deselection rule
   * applies and the touch-start tracking is reset. A failed hit test
   * (`probe == None`) changes nothing.
   */
  function OnDocumentTouchEnd(c: Canvas, remaining: nat, probe: Option<TouchEndProbe>): (r: Canvas)
    ensures r.view == c.view && r.store.nodes == c.store.nodes
    ensures c.g.isDragging ==>
      && r.store == c.store
      && r.g == c.g.(isDragging := false, draggedNodeId := None, isTouchDragging := false)
    ensures !c.g.isDragging && (remaining > 0 || probe.None?) ==> r == c
    ensures !c.g.isDragging && remaining == 0 && probe.Some? ==>
      && (r.store.selected.None? <==> ShouldDeselect(c.g, probe.value) || c.store.selected.None?)
      && (!ShouldDeselect(c.g, probe.value) ==> r.store == c.store)
      && r.g == c.g.(lastTouchStart := None, touchStartedOnNode := false,
                     touchStartedOnNavbar := false, touchedNavbarButton := false)
  {
    if c.g.isDragging then
      c.(g := c.g.(isDragging := false, draggedNodeId := None, isTouchDragging := false))
    else if remaining == 0 && probe.Some? then
      var p := probe.value;
      var store := if ShouldDeselect(c.g, p) then c.store.(selected := None) else c.store;
      Canvas(store, c.view, c.g.(lastTouchStart := None, touchStartedOnNode := false,
                                 touchStartedOnNavbar := false, touchedNavbarButton := false))
    else c
  }

  /**
   * The flag `shouldPreserveSelection` is computed but never consulted:
   * whether the touch started on the navbar never changes what a touch end
   * does to the store. In particular, a touch that started on the navbar and
   * ends outside every node, below no navbar band and on nothing clickable
   * still clears the selection.
   */
  lemma NavbarStartDoesNotPreserveSelection(c: Canvas, remaining: nat, probe: Option<TouchEndProbe>, onNavbar: bool)
    ensures OnDocumentTouchEnd(c.(g := c.g.(touchStartedOnNavbar := onNavbar)), remaining, probe).store
         == OnDocumentTouchEnd(c, remaining, probe).store
    ensures var c0 := Canvas(Store([], Some("n")), Initial, Idle.(touchStartedOnNavbar := true));
      var p := TouchEndProbe(Point(0.0, 0.0), false, false, None);
      OnDocumentTouchEnd(c0, 0, Some(p)).store.selected.None?
  {
  }

  /** A tap that started on a node, or ends on a clickable control, never clears the selection. */
  lemma TouchEndKeepsSelection(c: Canvas, remaining: nat, probe: Option<TouchEndProbe>)
    requires c.g.touchStartedOnNode || (probe.Some? && (probe.value.clickable || probe.value.onNode))
    ensures OnDocumentTouchEnd(c, remaining, probe).store == c.store
  {
  }

  // ------------------------------------------------------------ toolbar actions and editing

  /** The component's `addChildNode`: adds under the selected node when there is a truthy selection. */
  function AddChildOfSelected(s: Store, freshId: string, offset: (real, real)): (r: Store)
    ensures !Truthy(s.selected) ==> r == s
    ensures Truthy(s.selected) ==> r == AddChildNode(s, s.selected.value, freshId, offset).0
  {
    if Truthy(s.selected) then AddChildNode(s, s.selected.value, freshId, offset).0 else s
  }

  /** The component's `deleteSelectedNode`: deletes the selected subtree when there is a truthy selection. */
  function DeleteSelected(s: Store): (r: Store)
    ensures !Truthy(s.selected) ==> r == s
    ensures Truthy(s.selected) ==> r == DeleteSelectedNode(s, s.selected.value)
  {
    if Truthy(s.selected) then DeleteSelectedNode(s, s.selected.value) else s
  }

  /** `onContentEdit`: a non-blank label is stored as typed (untrimmed); a blank one is ignored. */
  function OnContentEdit(s: Store, nodeId: string, text: string): (r: Store)
    ensures AllSpace(text) ==> r == s
    ensures !AllSpace(text) ==> r == s.(nodes := UpdateNodeText(s.nodes, nodeId, text))
  {
    TrimEmptyIffAllSpace(text);
    if Trim(text) != "" then s.(nodes := UpdateNodeText(s.nodes, nodeId, text)) else s
  }

  /**
   * `finishEditNode`: with the node's editable element present, a non-blank
   * label is stored trimmed; a blank one is refused and the element is to
   * show the stored label again (second result).
   */
  function FinishEditNode(s: Store, nodeId: string, content: Option<string>): (r: (Store, Option<string>))
    ensures content.None? ==> r == (s, None)
    ensures content.Some? && !AllSpace(content.value) ==>
      var t := Trim(content.value);
      && t != "" && !IsSpace(t[0]) && !IsSpace(t[|t| - 1])
      && r == (s.(nodes := UpdateNodeText(s.nodes, nodeId, t)), None)
    ensures content.Some? && AllSpace(content.value) ==>
      && r.0 == s
      && (Find(s.nodes, nodeId).Some? ==> r.1 == Some(Find(s.nodes, nodeId).value.text))
      && (Find(s.nodes, nodeId).None? ==> r.1.None?)
  {
    match content
    case None => (s, None)
    case Some(text) =>
      TrimEmptyIffAllSpace(text);
      if Trim(text) != "" then (s.(nodes := UpdateNodeText(s.nodes, nodeId, Trim(text))), None)
      else
        match Find(s.nodes, nodeId)
        case None => (s, None)
        case Some(n) => (s, Some(n.text))
  }

  // ------------------------------------------------------------ dispatch

  /** The component's listeners, one constructor per handler. */
  datatype Event =
    | NodeDragStart(nodeId: string, client: Point, isTouch: bool)
    | NodeTouchEnd(nodeId: string, now: int)
    | TapTimer(nodeId: string)
    | Wheel(deltaY: real, client: Point, origin: Option<Point>)
    | TouchStart(touches: seq<Point>, distance: real)
    | TouchMove(touches: seq<Point>, distance: real, hit: Hit)
    | TouchEnd
    | TouchCancel
    | MouseDown(client: Point, onNode: bool)
    | MouseMove(client: Point)
    | MouseUp
    | DocumentMouseUp
    | DocumentMouseMove(client: Point)
    | DocumentTouchStart(touches: seq<Point>, hit: Hit, navbar: Option<Rect>)
    | DocumentTouchMove(touches: seq<Point>)
    | DocumentTouchEnd(remaining: nat, probe: Option<TouchEndProbe>)

  /**
   * What the browser guarantees of an event: two-finger distances measure
   * the two fingers, and a pinch move follows a pinch start with fingers apart.
   */
  predicate Delivered(c: Canvas, e: Event) {
    && (e.TouchStart? && |e.touches| == 2 ==> IsDistance(e.distance, e.touches[0], e.touches[1]))
    && (e.TouchMove? && |e.touches| == 2 ==>
          IsDistance(e.distance, e.touches[0], e.touches[1]) && c.g.initialDistance > 0.0)
  }

  function Dispatch(c: Canvas, e: Event): (r: Canvas)
    requires InRange(c.view) && Delivered(c, e)
    ensures InRange(r.view)
  {
    match e
    case NodeDragStart(id, p, touch) => StartDragNode(c, id, p, touch)
    case NodeTouchEnd(id, now) => c.(g := HandleTouchEnd(c.g, id, now).0)
    case TapTimer(id) => c.(g := TapTimerExpired(c.g, id))
    case Wheel(dy, p, o) => c.(view := WheelZoom(c.view, dy, p, o))
    case TouchStart(ts, d) => OnTouchStart(c, ts, d)
    case TouchMove(ts, d, hit) => OnTouchMove(c, ts, d, PanSeesNode(hit))
    case TouchEnd => StopPanning(c)
    case TouchCancel => StopPanning(c)
    case MouseDown(p, onNode) => OnMouseDown(c, p, onNode)
    case MouseMove(p) => OnMouseMove(c, p)
    case MouseUp => StopPanning(c)
    case DocumentMouseUp => OnDocumentMouseUp(c)
    case DocumentMouseMove(p) => OnDocumentMouseMove(c, p)
    case DocumentTouchStart(ts, hit, nav) => OnDocumentTouchStart(c, ts, ClosestNode(hit), nav)
    case DocumentTouchMove(ts) => OnDocumentTouchMove(c, ts)
    case DocumentTouchEnd(n, p) => OnDocumentTouchEnd(c, n, p)
  }

  /**
   * The host `mouseup` ends a background pan and leaves everything else as
   * it was; a node drag ends only on the document-level `mouseup`.
   */
  lemma HostMouseUpStopsPanning(c: Canvas)
    requires InRange(c.view)
    ensures var r := Dispatch(c, MouseUp);
      && !r.g.isPanning
      && r.store == c.store && r.view == c.view
      && r.g.(isPanning := c.g.isPanning) == c.g
  {
  }

  /**
   * Once a touch drag has crossed the threshold it stays a drag until a
   * document touch end finishes the node drag, or a new touch press on a
   * node re-arms the threshold.
   */
  lemma TouchDragLatches(c: Canvas, e: Event)
    requires InRange(c.view) && Delivered(c, e)
    requires c.g.isTouchDragging
    requires !(e.DocumentTouchEnd? && c.g.isDragging) && !(e.NodeDragStart? && e.isTouch)
    ensures Dispatch(c, e).g.isTouchDragging
  {
    match e
    case DocumentTouchEnd(n, p) =>
      assert !c.g.isDragging;
    case _ =>
  }

  /** Only a few listeners touch the node list, and none of them adds or removes nodes. */
  lemma EventsKeepNodeCount(c: Canvas, e: Event)
    requires InRange(c.view) && Delivered(c, e)
    ensures |Dispatch(c, e).store.nodes| == |c.store.nodes|
    ensures !(e.DocumentMouseMove? || e.DocumentTouchMove?) ==> Dispatch(c, e).store.nodes == c.store.nodes
  {
  }
}

=== FILE: js_text.dfy ===
/**
 * JavaScript's `String.prototype.trim`, which the editor uses to refuse
 * blank node labels. Whitespace is the ECMAScript WhiteSpace and
 * LineTerminator sets: TAB, VT, FF, ZWNBSP, the space separators (Zs)
 * and LF, CR, LS, PS.
 */
module JsText {

  const SpaceChars: set<char> :=
    {'\U{0009}', '\U{000B}', '\U{000C}', '\U{0020}', '\U{00A0}', '\U{FEFF}',
     '\U{1680}', '\U{2000}', '\U{2001}', '\U{2002}', '\U{2003}', '\U{2004}',
     '\U{2005}', '\U{2006}', '\U{2007}', '\U{2008}', '\U{2009}', '\U{200A}',
     '\U{202F}', '\U{205F}', '\U{3000}', '\U{000A}', '\U{000D}', '\U{2028}',
     '\U{2029}'}

  predicate IsSpace(c: char) {
    c in SpaceChars
  }

  predicate AllSpace(s: string) {
    forall k | 0 <= k < |s| :: IsSpace(s[k])
  }

  /** The number of leading whitespace characters. */
  function LeadingSpace(s: string): (n: nat)
    ensures n <= |s| && AllSpace(s[..n])
    ensures n < |s| ==> !IsSpace(s[n])
    decreases |s|
  {
    if |s| > 0 && IsSpace(s[0]) then
      var m := LeadingSpace(s[1..]);
      assert forall k | 0 < k < m + 1 :: s[k] == s[1..][..m][k - 1];
      m + 1
    else 0
  }

  /** Where the trailing whitespace starts. */
  function TrailingSpace(s: string): (n: nat)
    ensures n <= |s| && AllSpace(s[n..])
    ensures n > 0 ==> !IsSpace(s[n - 1])
    decreases |s|
  {
    if |s| > 0 && IsSpace(s[|s| - 1]) then
      var m := TrailingSpace(s[..|s| - 1]);
      assert forall k | m <= k < |s| - 1 :: s[k] == s[..|s| - 1][m..][k - m];
      m
    else |s|
  }

  /** Drops leading whitespace: the longest suffix that does not start with a space. */
  function TrimStart(s: string): (r: string)
    ensures |r| <= |s| && r == s[|s| - |r|..]
    ensures AllSpace(s[..|s| - |r|])
    ensures |r| > 0 ==> !IsSpace(r[0])
  {
    s[LeadingSpace(s)..]
  }

  /** Drops trailing whitespace: the longest prefix that does not end with a space. */
  function TrimEnd(s: string): (r: string)
    ensures |r| <= |s| && r == s[..|r|]
    ensures AllSpace(s[|r|..])
    ensures |r| > 0 ==> !IsSpace(r[|r| - 1])
  {
    s[..TrailingSpace(s)]
  }

  /** `s.trim()`: the slice of `s` left once the whitespace at both ends is removed. */
  function Trim(s: string): (r: string)
    ensures |r| <= |s|
    ensures |r| > 0 ==> !IsSpace(r[0]) && !IsSpace(r[|r| - 1])
    ensures exists i, j | 0 <= i <= j <= |s| :: r == s[i..j] && AllSpace(s[..i]) && AllSpace(s[j..])
  {
    var i := LeadingSpace(s);
    var j := i + TrailingSpace(s[i..]);
    assert s[i..][..j - i] == s[i..j] && s[i..][j - i..] == s[j..];
    TrimEnd(TrimStart(s))
  }

  /** An all-whitespace label trims to the empty string. */
  lemma TrimOfAllSpace(s: string)
    requires AllSpace(s)
    ensures Trim(s) == ""
  {
    var r := Trim(s);
    var i, j :| 0 <= i <= j <= |s| && r == s[i..j] && AllSpace(s[..i]) && AllSpace(s[j..]);
  }

  /** A label that trims to the empty string is all whitespace. */
  lemma AllSpaceOfEmptyTrim(s: string)
    requires Trim(s) == ""
    ensures AllSpace(s)
  {
    var i, j :| 0 <= i <= j <= |s| && Trim(s) == s[i..j] && AllSpace(s[..i]) && AllSpace(s[j..]);
    assert i == j;
    forall k | 0 <= k < |s| ensures IsSpace(s[k]) {
      if k < i { assert s[..i][k] == s[k]; } else { assert s[j..][k - j] == s[k]; }
    }
  }

  /** A label is blank (`text.trim() === ''`) exactly when every character is whitespace. */
  lemma TrimEmptyIffAllSpace(s: string)
    ensures Trim(s) == "" <==> AllSpace(s)
  {
    if AllSpace(s) { TrimOfAllSpace(s); }
    if Trim(s) == "" { AllSpaceOfEmptyTrim(s); }
  }

  /** Trimming twice is the same as trimming once. */
  lemma TrimIdempotent(s: string)
    ensures Trim(Trim(s)) == Trim(s)
  {
    var r := Trim(s);
    if |r| > 0 {
      assert TrimStart(r) == r;
      assert TrimEnd(r) == r;
    }
  }
}

=== FILE: tree_lemmas.dfy ===
/**
 * Properties of the tree store: the descendant test, preservation of the
 * tree shape by the mutating operations, and the connection list of a tree.
 */
module TreeLemmas {
  import opened Wrappers
  import opened TreeStore

  // ------------------------------------------------------------ the walk

  lemma {:induction false} ChainEndsMono(ns: seq<Node>, cur: Option<string>, f: nat, g: nat)
    requires ChainEnds(ns, cur, f) && f <= g
    ensures ChainEnds(ns, cur, g)
    decreases f
  {
    if cur.Some? {
      ChainEndsMono(ns, Step(ns, cur), f - 1, g - 1);
    }
  }

  /** Once the walk is known to end within `f` steps, more fuel changes nothing. */
  lemma {:induction false} WalkFuelStable(ns: seq<Node>, cur: Option<string>, a: string, f: nat, g: nat)
    requires ChainEnds(ns, cur, f) && f <= g
    ensures Walk(ns, cur, a, f) == Walk(ns, cur, a, g)
    decreases f
  {
    if cur.Some? {
      WalkFuelStable(ns, Step(ns, cur), a, f - 1, g - 1);
    }
  }

  /**
   * On an acyclic list the bound of |ns| steps never cuts the source's
   * unbounded `while (currentId)` loop short: any larger bound agrees.
   */
  lemma FuelSuffices(ns: seq<Node>, c: string, a: string, extra: nat)
    requires Acyclic(ns)
    ensures IsDescendant(ns, c, a) <==>
      c == a || (Find(ns, c).Some? && Walk(ns, ParentRef(Find(ns, c).value), a, |ns| + extra))
  {
    if c != a && Find(ns, c).Some? {
      var k := FindIndex(ns, c).value;
      assert ChainEnds(ns, ParentRef(ns[k]), |ns|);
      WalkFuelStable(ns, ParentRef(ns[k]), a, |ns|, |ns| + extra);
    }
  }

  /**
   * The descendant relation is the reflexive-transitive closure of the
   * parent link: a node other than `a` descends from `a` iff its parent is
   * `a` or descends from `a`; a missing node descends from nothing else.
   */
  lemma IsDescendantUnfold(ns: seq<Node>, c: string, a: string)
    requires Acyclic(ns)
    ensures IsDescendant(ns, c, c)
    ensures c != a && Find(ns, c).None? ==> !IsDescendant(ns, c, a)
    ensures c != a && Find(ns, c).Some? ==>
      (IsDescendant(ns, c, a) <==>
        var p := ParentRef(Find(ns, c).value);
        p == Some(a) || (p.Some? && IsDescendant(ns, p.value, a)))
  {
    if c != a && Find(ns, c).Some? {
      var k := FindIndex(ns, c).value;
      var p := ParentRef(ns[k]);
      assert ChainEnds(ns, p, |ns|);
      if p.Some? && p.value != a {
        var q := p.value;
        assert Step(ns, p) == (match Find(ns, q) case None => None case Some(m) => ParentRef(m));
        assert IsDescendant(ns, c, a) == Walk(ns, p, a, |ns|);
        assert Walk(ns, p, a, |ns|) == Walk(ns, Step(ns, p), a, |ns| - 1);
        if Find(ns, q).Some? {
          var j := FindIndex(ns, q).value;
          assert Step(ns, p) == ParentRef(ns[j]);
          assert ChainEnds(ns, ParentRef(ns[j]), |ns| - 1);
          WalkFuelStable(ns, ParentRef(ns[j]), a, |ns| - 1, |ns|);
          assert IsDescendant(ns, q, a) == Walk(ns, ParentRef(ns[j]), a, |ns|);
        }
      }
    }
  }

  // ------------------------------------------------------------ tree facts

  predicate DistinctIds(ns: seq<Node>) {
    forall i, j | 0 <= i < j < |ns| :: ns[i].id != ns[j].id
  }

  /** The index form of the tree invariant that WellFormed packs recursively. */
  predicate TreeFacts(ns: seq<Node>) {
    && |ns| > 0
    && ns[0].parentId.None?
    && (forall i | 0 <= i < |ns| :: ns[i].id != "")
    && DistinctIds(ns)
    && (forall i | 0 < i < |ns| :: ns[i].parentId.Some? && ns[i].parentId.value in Ids(ns[..i]))
  }

  /** Extending an index-form tree by a node with a fresh id and an earlier parent keeps the index form. */
  lemma TreeFactsSnoc(ns: seq<Node>)
    requires |ns| > 1 && TreeFacts(ns[..|ns| - 1])
    requires ns[|ns| - 1].id != "" && ns[|ns| - 1].id !in Ids(ns[..|ns| - 1])
    requires ns[|ns| - 1].parentId.Some? && ns[|ns| - 1].parentId.value in Ids(ns[..|ns| - 1])
    ensures TreeFacts(ns)
  {
    var init := ns[..|ns| - 1];
    var last := |ns| - 1;
    forall i | 0 <= i < last ensures ns[i].id != ns[last].id {
      assert ns[i] == init[i];
    }
    forall i | 0 <= i < |ns| ensures ns[i].id != "" {
      if i < last { assert ns[i] == init[i]; }
    }
    forall i | 0 < i < |ns| ensures ns[i].parentId.Some? && ns[i].parentId.value in Ids(ns[..i]) {
      if i < last {
        assert ns[..i] == init[..i];
        assert ns[i] == init[i];
      } else {
        assert ns[..i] == init;
      }
    }
  }

  lemma {:induction false} WellFormedFacts(ns: seq<Node>)
    requires WellFormed(ns)
    ensures TreeFacts(ns)
    decreases |ns|
  {
    if |ns| > 1 {
      WellFormedFacts(ns[..|ns| - 1]);
      TreeFactsSnoc(ns);
    }
  }

  lemma FindDistinct(ns: seq<Node>, j: nat)
    requires DistinctIds(ns) && j < |ns|
    ensures FindIndex(ns, ns[j].id) == Some(j)
    ensures Find(ns, ns[j].id) == Some(ns[j])
  {
    assert ns[j].id in Ids(ns);
  }

  lemma InIds(ns: seq<Node>, n: Node)
    requires n in ns
    ensures n.id in Ids(ns)
  {
    var j :| 0 <= j < |ns| && ns[j] == n;
  }

  /** The ancestor walk from node `i` of a tree ends within i + 1 steps. */
  lemma {:induction false} ChainEndsInTree(ns: seq<Node>, i: nat)
    requires TreeFacts(ns) && i < |ns|
    ensures ChainEnds(ns, ParentRef(ns[i]), i + 1)
    decreases i
  {
    if i > 0 {
      var p := ns[i].parentId.value;
      var j :| 0 <= j < i && ns[..i][j].id == p;
      assert ns[j].id == p && p != "";
      FindDistinct(ns, j);
      assert Step(ns, ParentRef(ns[i])) == ParentRef(ns[j]);
      ChainEndsInTree(ns, j);
      ChainEndsMono(ns, ParentRef(ns[j]), j + 1, i);
    }
  }

  /**
   * Every list the store builds is a tree in the usual sense: exactly one
   * root (listed first), non-empty distinct ids, every parent id resolves to
   * an earlier node, and no ancestor walk runs forever.
   */
  lemma WellFormedIsTree(ns: seq<Node>)
    requires WellFormed(ns)
    ensures |ns| > 0 && ns[0].parentId.None?
    ensures forall i | 0 < i < |ns| :: ns[i].parentId.Some? && ns[i].parentId.value != ""
    ensures DistinctIds(ns)
    ensures forall i | 0 < i < |ns| ::
      FindIndex(ns, ns[i].parentId.value).Some? && FindIndex(ns, ns[i].parentId.value).value < i
    ensures Acyclic(ns)
  {
    WellFormedFacts(ns);
    forall i | 0 < i < |ns|
      ensures ns[i].parentId.value != ""
      ensures FindIndex(ns, ns[i].parentId.value).Some? && FindIndex(ns, ns[i].parentId.value).value < i
    {
      var j :| 0 <= j < i && ns[..i][j].id == ns[i].parentId.value;
      assert ns[j].id == ns[i].parentId.value;
      FindDistinct(ns, j);
    }
    forall i | 0 <= i < |ns| ensures ChainEnds(ns, ParentRef(ns[i]), |ns|) {
      ChainEndsInTree(ns, i);
      ChainEndsMono(ns, ParentRef(ns[i]), i + 1, |ns|);
    }
  }

  // ------------------------------------------------------------ add

  /** Adding a child under a fresh non-empty id keeps the tree a tree. */
  lemma AddChildKeepsTree(s: Store, parentId: string, freshId: string, offset: (real, real))
    requires WellFormed(s.nodes)
    requires freshId != "" && freshId !in Ids(s.nodes)
    ensures WellFormed(AddChildNode(s, parentId, freshId, offset).0.nodes)
  {
    var r := AddChildNode(s, parentId, freshId, offset).0;
    if Find(s.nodes, parentId).Some? {
      assert r.nodes[..|r.nodes| - 1] == s.nodes;
      var k := FindIndex(s.nodes, parentId).value;
      assert s.nodes[k].id == parentId;
    }
  }

  // ------------------------------------------------------------ delete

  lemma RootIsNotTarget(all: seq<Node>, t: string)
    requires WellFormed(all) && DeleteApplies(all, t)
    ensures !IsDescendant(all, all[0].id, t)
  {
    WellFormedIsTree(all);
    FindDistinct(all, 0);
  }

  /** A surviving node's parent survives too: otherwise the node would descend from `t`. */
  lemma ParentSurvives(all: seq<Node>, t: string, k: nat)
    requires WellFormed(all)
    requires 0 < k < |all| && !IsDescendant(all, all[k].id, t)
    ensures all[k].parentId.Some? && all[k].parentId.value in Ids(Prune(all, t, all[..k]))
  {
    WellFormedFacts(all);
    WellFormedIsTree(all);
    var last := all[k];
    var p := last.parentId.value;
    var j :| 0 <= j < k && all[..k][j].id == p;
    assert all[j].id == p && p != "";
    FindDistinct(all, k);
    IsDescendantUnfold(all, last.id, t);
    assert !IsDescendant(all, p, t);
    assert all[j] in all[..k];
    PruneMembership(all, t, all[..k]);
    InIds(Prune(all, t, all[..k]), all[j]);
  }

  /** A node's id is fresh among the survivors of the nodes listed before it. */
  lemma IdFreshAmongSurvivors(all: seq<Node>, t: string, k: nat)
    requires WellFormed(all) && 0 < k < |all|
    ensures all[k].id !in Ids(Prune(all, t, all[..k]))
    ensures all[k].id != "" && all[k].parentId.Some?
  {
    WellFormedFacts(all);
    var kept := Prune(all, t, all[..k]);
    PruneMembership(all, t, all[..k]);
    forall i | 0 <= i < |kept| ensures kept[i].id != all[k].id {
      assert kept[i] in all[..k];
      var j :| 0 <= j < k && all[..k][j] == kept[i];
      assert all[j] == kept[i];
    }
  }

  /** The first node alone survives as a one-node tree. */
  lemma PruneBase(all: seq<Node>, t: string)
    requires WellFormed(all) && DeleteApplies(all, t)
    ensures WellFormed(Prune(all, t, all[..1]))
  {
    RootIsNotTarget(all, t);
    WellFormedFacts(all);
    var ns := all[..1];
    assert ns[..0] == [];
    assert Prune(all, t, ns) == [all[0]];
  }

  /** Appending a node with a fresh non-empty id and a listed parent keeps a tree a tree. */
  lemma SnocWellFormed(kept: seq<Node>, last: Node)
    requires WellFormed(kept)
    requires last.id != "" && last.id !in Ids(kept)
    requires last.parentId.Some? && last.parentId.value in Ids(kept)
    ensures WellFormed(kept + [last])
  {
    var r := kept + [last];
    assert r[..|r| - 1] == kept && r[|r| - 1] == last;
  }

  /** One more node of the list either is pruned or is appended to the survivors. */
  lemma PruneSnoc(all: seq<Node>, t: string, k: nat)
    requires 1 <= k <= |all|
    ensures IsDescendant(all, all[k - 1].id, t) ==> Prune(all, t, all[..k]) == Prune(all, t, all[..k - 1])
    ensures !IsDescendant(all, all[k - 1].id, t) ==> Prune(all, t, all[..k]) == Prune(all, t, all[..k - 1]) + [all[k - 1]]
  {
    assert all[..k][..k - 1] == all[..k - 1] && all[..k][k - 1] == all[k - 1];
  }

  /** What a surviving node brings: a fresh non-empty id and a parent among the earlier survivors. */
  lemma SurvivorFacts(all: seq<Node>, t: string, k: nat)
    requires WellFormed(all) && 1 < k <= |all|
    requires !IsDescendant(all, all[k - 1].id, t)
    ensures all[k - 1].id != "" && all[k - 1].id !in Ids(Prune(all, t, all[..k - 1]))
    ensures all[k - 1].parentId.Some? && all[k - 1].parentId.value in Ids(Prune(all, t, all[..k - 1]))
  {
    IdFreshAmongSurvivors(all, t, k - 1);
    ParentSurvives(all, t, k - 1);
  }

  /** A surviving node with those facts extends the tree of the survivors before it. */
  lemma SurvivorExtends(all: seq<Node>, t: string, k: nat)
    requires 1 < k <= |all| && !IsDescendant(all, all[k - 1].id, t)
    requires WellFormed(Prune(all, t, all[..k - 1]))
    requires all[k - 1].id != "" && all[k - 1].id !in Ids(Prune(all, t, all[..k - 1]))
    requires all[k - 1].parentId.Some? && all[k - 1].parentId.value in Ids(Prune(all, t, all[..k - 1]))
    ensures WellFormed(Prune(all, t, all[..k]))
  {
    PruneSnoc(all, t, k);
    SnocWellFormed(Prune(all, t, all[..k - 1]), all[k - 1]);
  }

  /** The survivors of one more node of a tree are still a tree. */
  lemma PruneStep(all: seq<Node>, t: string, k: nat)
    requires WellFormed(all) && 1 < k <= |all|
    requires WellFormed(Prune(all, t, all[..k - 1]))
    ensures WellFormed(Prune(all, t, all[..k]))
  {
    if IsDescendant(all, all[k - 1].id, t) {
      PruneSnoc(all, t, k);
    } else {
      SurvivorFacts(all, t, k);
      SurvivorExtends(all, t, k);
    }
  }

  lemma {:induction false} PruneKeepsTree(all: seq<Node>, t: string, k: nat)
    requires WellFormed(all) && DeleteApplies(all, t)
    requires 1 <= k <= |all|
    ensures WellFormed(Prune(all, t, all[..k]))
    decreases k
  {
    if k == 1 {
      PruneBase(all, t);
    } else {
      PruneKeepsTree(all, t, k - 1);
      PruneStep(all, t, k);
    }
  }

  /** Every parent link of a tree resolves within the tree. */
  lemma NoDanglingParent(ns: seq<Node>)
    requires WellFormed(ns)
    ensures forall i | 0 <= i < |ns| :: ns[i].parentId.Some? ==> ns[i].parentId.value in Ids(ns)
  {
    WellFormedIsTree(ns);
    forall i | 0 <= i < |ns| && ns[i].parentId.Some? ensures ns[i].parentId.value in Ids(ns) {
      var j := FindIndex(ns, ns[i].parentId.value).value;
    }
  }

  /** The target itself never survives the prune. */
  lemma TargetPruned(all: seq<Node>, t: string, ns: seq<Node>)
    ensures t !in Ids(Prune(all, t, ns))
  {
    var kept := Prune(all, t, ns);
    PruneMembership(all, t, ns);
    forall i | 0 <= i < |kept| ensures kept[i].id != t {
      assert kept[i] in kept;
    }
  }

  lemma DeleteAppliedKeepsTree(s: Store, selectedId: string)
    requires WellFormed(s.nodes) && DeleteApplies(s.nodes, selectedId)
    ensures WellFormed(DeleteSelectedNode(s, selectedId).nodes)
    ensures s.nodes[0] in DeleteSelectedNode(s, selectedId).nodes
    ensures selectedId !in Ids(DeleteSelectedNode(s, selectedId).nodes)
  {
    var r := DeleteSelectedNode(s, selectedId);
    assert s.nodes[..|s.nodes|] == s.nodes;
    WellFormedFacts(s.nodes);
    WellFormedIsTree(s.nodes);
    PruneKeepsTree(s.nodes, selectedId, |s.nodes|);
    RootIsNotTarget(s.nodes, selectedId);
    TargetPruned(s.nodes, selectedId, s.nodes);
  }

  /**
   * Cascade delete keeps a tree a tree (so no survivor is left with a
   * dangling parent), never removes the root, and removes the target.
   */
  lemma DeleteKeepsTree(s: Store, selectedId: string)
    requires WellFormed(s.nodes)
    ensures var r := DeleteSelectedNode(s, selectedId);
      && WellFormed(r.nodes)
      && s.nodes[0] in r.nodes
      && (DeleteApplies(s.nodes, selectedId) ==> selectedId !in Ids(r.nodes))
      && (forall i | 0 <= i < |r.nodes| :: r.nodes[i].parentId.Some? ==> r.nodes[i].parentId.value in Ids(r.nodes))
  {
    if DeleteApplies(s.nodes, selectedId) {
      DeleteAppliedKeepsTree(s, selectedId);
    }
    NoDanglingParent(DeleteSelectedNode(s, selectedId).nodes);
  }

  // ------------------------------------------------------------ field updates

  /** Same ids and parent links at every position. */
  predicate SameSkeleton(a: seq<Node>, b: seq<Node>) {
    |a| == |b| && forall i | 0 <= i < |a| :: a[i].id == b[i].id && a[i].parentId == b[i].parentId
  }

  lemma FindSkeleton(a: seq<Node>, b: seq<Node>, id: string)
    requires SameSkeleton(a, b)
    ensures FindIndex(a, id) == FindIndex(b, id)
  {
    assert Ids(a) == Ids(b) by {
      forall x | x in Ids(a) ensures x in Ids(b) { var i :| 0 <= i < |a| && a[i].id == x; assert b[i].id == x; }
      forall x | x in Ids(b) ensures x in Ids(a) { var i :| 0 <= i < |b| && b[i].id == x; assert a[i].id == x; }
    }
  }

  lemma {:induction false} WalkSkeleton(a: seq<Node>, b: seq<Node>, cur: Option<string>, t: string, f: nat)
    requires SameSkeleton(a, b)
    ensures Walk(a, cur, t, f) == Walk(b, cur, t, f)
    decreases f
  {
    if cur.Some? {
      FindSkeleton(a, b, cur.value);
      assert Step(a, cur) == Step(b, cur);
      if f > 0 {
        WalkSkeleton(a, b, Step(a, cur), t, f - 1);
      }
    }
  }

  lemma {:induction false} WellFormedSkeleton(a: seq<Node>, b: seq<Node>)
    requires SameSkeleton(a, b) && WellFormed(a)
    ensures WellFormed(b)
    decreases |a|
  {
    if |a| > 1 {
      var ia, ib := a[..|a| - 1], b[..|b| - 1];
      WellFormedSkeleton(ia, ib);
      assert Ids(ia) == Ids(ib) by {
        forall x | x in Ids(ia) ensures x in Ids(ib) { var i :| 0 <= i < |ia| && ia[i].id == x; assert ib[i].id == x; }
        forall x | x in Ids(ib) ensures x in Ids(ia) { var i :| 0 <= i < |ib| && ib[i].id == x; assert ia[i].id == x; }
      }
    }
  }

  /** Lists with the same skeleton agree on the tree shape and on the descendant test. */
  lemma SkeletonKeepsShape(a: seq<Node>, b: seq<Node>, c: string, t: string)
    requires SameSkeleton(a, b)
    ensures WellFormed(a) <==> WellFormed(b)
    ensures IsDescendant(a, c, t) == IsDescendant(b, c, t)
  {
    if WellFormed(a) { WellFormedSkeleton(a, b); }
    if WellFormed(b) { WellFormedSkeleton(b, a); }
    FindSkeleton(a, b, c);
    if c != t && Find(a, c).Some? {
      WalkSkeleton(a, b, ParentRef(Find(a, c).value), t, |a|);
    }
  }

  /** Moving or relabelling nodes never changes the tree: same shape, same descendants. */
  lemma UpdatesKeepTree(ns: seq<Node>, id: string, x: real, y: real, text: string, c: string, t: string)
    ensures WellFormed(ns) <==> WellFormed(UpdateNodePosition(ns, id, x, y))
    ensures WellFormed(ns) <==> WellFormed(UpdateNodeText(ns, id, text))
    ensures IsDescendant(ns, c, t) == IsDescendant(UpdateNodePosition(ns, id, x, y), c, t)
    ensures IsDescendant(ns, c, t) == IsDescendant(UpdateNodeText(ns, id, text), c, t)
  {
    SkeletonKeepsShape(ns, UpdateNodePosition(ns, id, x, y), c, t);
    SkeletonKeepsShape(ns, UpdateNodeText(ns, id, text), c, t);
  }

  /** A later position update of the same node overrides an earlier one. */
  lemma PositionLastWriteWins(ns: seq<Node>, id: string, x1: real, y1: real, x2: real, y2: real)
    ensures UpdateNodePosition(UpdateNodePosition(ns, id, x1, y1), id, x2, y2) == UpdateNodePosition(ns, id, x2, y2)
  {
  }

  /**
   * Selecting a node and then deleting the selection removes the same
   * nodes as deleting by id; the selection is cleared exactly when the
   * delete applies, and otherwise stays on the unchecked id.
   */
  lemma SelectThenDelete(s: Store, id: string)
    ensures var r := DeleteSelectedNode(SelectNode(s, id), id);
      && r.nodes == DeleteSelectedNode(s, id).nodes
      && (r.selected.None? <==> DeleteApplies(s.nodes, id))
      && (!DeleteApplies(s.nodes, id) ==> r.selected == Some(id))
  {
  }

  // ------------------------------------------------------------ connections

  lemma LiveParentInTree(all: seq<Node>, i: nat)
    requires TreeFacts(all) && 0 < i < |all|
    ensures HasLiveParent(all, all[i])
  {
    var p := all[i].parentId.value;
    var j :| 0 <= j < i && all[..i][j].id == p;
    assert all[j].id == p && p != "";
    FindDistinct(all, j);
  }

  lemma ConnectionsStep(all: seq<Node>, ns: seq<Node>)
    requires |ns| > 0 && HasLiveParent(all, ns[|ns| - 1])
    ensures Children(ConnectionsFrom(all, ns)) == Children(ConnectionsFrom(all, ns[..|ns| - 1])) + [ns[|ns| - 1]]
  {
    var rest := ConnectionsFrom(all, ns[..|ns| - 1]);
    var last := ns[|ns| - 1];
    var r := rest + [Connection(Find(all, ParentRef(last).value).value, last)];
    assert ConnectionsFrom(all, ns) == r;
    assert Children(r) == Children(rest) + [last];
  }

  lemma ConnectionsPrefixStep(all: seq<Node>, k: nat)
    requires 1 < k <= |all|
    requires HasLiveParent(all, all[k - 1])
    requires Children(ConnectionsFrom(all, all[..k - 1])) == all[1..k - 1]
    ensures Children(ConnectionsFrom(all, all[..k])) == all[1..k]
  {
    var ns := all[..k];
    assert ns[..|ns| - 1] == all[..k - 1];
    ConnectionsStep(all, ns);
    assert all[1..k] == all[1..k - 1] + [all[k - 1]];
  }

  lemma {:induction false} ConnectionsOfPrefix(all: seq<Node>, k: nat)
    requires |all| > 0 && ParentRef(all[0]).None?
    requires forall i | 0 < i < |all| :: HasLiveParent(all, all[i])
    requires 1 <= k <= |all|
    ensures Children(ConnectionsFrom(all, all[..k])) == all[1..k]
    decreases k
  {
    if k == 1 {
      var ns := all[..1];
      assert ns[..0] == all[..0];
      assert ConnectionsFrom(all, ns) == ConnectionsFrom(all, all[..0]);
    } else {
      ConnectionsOfPrefix(all, k - 1);
      ConnectionsPrefixStep(all, k);
    }
  }

  /** In a tree every node but the root contributes exactly one connection, in list order. */
  lemma ConnectionsOfTree(ns: seq<Node>)
    requires WellFormed(ns)
    ensures Children(GetConnections(ns)) == ns[1..]
    ensures |GetConnections(ns)| == |ns| - 1
  {
    assert ns[..|ns|] == ns;
    WellFormedFacts(ns);
    forall i | 0 < i < |ns| ensures HasLiveParent(ns, ns[i]) {
      LiveParentInTree(ns, i);
    }
    ConnectionsOfPrefix(ns, |ns|);
    assert |Children(GetConnections(ns))| == |GetConnections(ns)|;
  }
}

=== FILE: tree_store.dfy ===
/**
 * The mind-map tree store (app/src/app/services/app-state.service.ts): a flat
 * list of node records linked by `parentId`, plus the selected node id.
 *
 * Persistence to local storage, id generation and the random placement of
 * new children are not modelled here: fresh ids and placement offsets are
 * parameters of the operations that need them.
 */
module TreeStore {
  import opened Wrappers

  /** A live node; `width`/`height` are optional (absent on nodes the editor creates). */
  datatype Node = Node(
    id: string,
    text: string,
    x: real,
    y: real,
    parentId: Option<string>,
    width: Option<real>,
    height: Option<real>)

  /** The store's state: the node list and the selected node id. */
  datatype Store = Store(nodes: seq<Node>, selected: Option<string>)

  /** A (parent, child) edge as listed for drawing connection lines. */
  datatype Connection = Connection(parent: Node, child: Node)

  const RootText: string := "Central Topic"
  const ChildText: string := "New Idea"
  /** The root is placed so that its box is roughly centred in the viewport. */
  const RootHalfWidth: real := 75.0
  const RootHalfHeight: real := 25.0
  /** A child's box is shifted so that it is centred on the chosen point. */
  const ChildHalfWidth: real := 50.0
  const ChildHalfHeight: real := 20.0

  /** JavaScript truthiness of a `string | null`: null and "" are both falsy. */
  predicate Truthy(s: Option<string>) {
    s.Some? && s.value != ""
  }

  /** The parent link as the ancestor walk and the delete guard see it (a falsy id is no parent). */
  function ParentRef(n: Node): Option<string> {
    if Truthy(n.parentId) then n.parentId else None
  }

  function Ids(ns: seq<Node>): set<string> {
    set i | 0 <= i < |ns| :: ns[i].id
  }

  /** Position of the first node carrying `id` (`Array.prototype.find`). */
  function FindIndex(ns: seq<Node>, id: string): (r: Option<nat>)
    ensures r.Some? ==> r.value < |ns| && ns[r.value].id == id
    ensures r.Some? ==> forall k | 0 <= k < r.value :: ns[k].id != id
    ensures r.None? <==> id !in Ids(ns)
    decreases |ns|
  {
    if |ns| == 0 then None
    else if ns[0].id == id then Some(0)
    else
      assert Ids(ns) == {ns[0].id} + Ids(ns[1..]) by {
        forall i | 0 < i < |ns| ensures ns[i].id == ns[1..][i - 1].id { }
      }
      match FindIndex(ns[1..], id)
      case None => None
      case Some(k) => Some(k + 1)
  }

  /** The first node carrying `id`, if any. */
  function Find(ns: seq<Node>, id: string): Option<Node> {
    match FindIndex(ns, id)
    case None => None
    case Some(k) => Some(ns[k])
  }

  // ---------------------------------------------------------------- descendants

  /** One step of the ancestor walk: the parent link of the node the current id names. */
  function Step(ns: seq<Node>, cur: Option<string>): Option<string> {
    match cur
    case None => None
    case Some(id) =>
      match Find(ns, id)
      case None => None
      case Some(p) => ParentRef(p)
  }

  /** The ancestor walk from `cur` reaches a missing link within `fuel` steps. */
  predicate ChainEnds(ns: seq<Node>, cur: Option<string>, fuel: nat)
    decreases fuel
  {
    cur.None? || (fuel > 0 && ChainEnds(ns, Step(ns, cur), fuel - 1))
  }

  /** No parent cycles: every node's ancestor walk ends within the list's length. */
  predicate Acyclic(ns: seq<Node>) {
    forall i | 0 <= i < |ns| :: ChainEnds(ns, ParentRef(ns[i]), |ns|)
  }

  /** The `while (currentId)` loop of the descendant test, cut off after `fuel` steps. */
  function Walk(ns: seq<Node>, cur: Option<string>, ancestor: string, fuel: nat): bool
    decreases fuel
  {
    match cur
    case None => false
    case Some(id) => id == ancestor || (fuel > 0 && Walk(ns, Step(ns, cur), ancestor, fuel - 1))
  }

  /**
   * `isDescendant(childId, ancestorId)`: true for the node itself, otherwise
   * whether the child's ancestor walk meets `ancestorId`. The source loops
   * without bound; the model stops after |ns| steps, which never cuts an
   * acyclic walk short (TreeLemmas.FuelSuffices).
   */
  function IsDescendant(ns: seq<Node>, childId: string, ancestorId: string): bool {
    if childId == ancestorId then true
    else
      match Find(ns, childId)
      case None => false
      case Some(n) => Walk(ns, ParentRef(n), ancestorId, |ns|)
  }

  // ---------------------------------------------------------------- tree shape

  /**
   * The lists the store itself builds: a root (no parent) followed by nodes
   * each carrying a fresh non-empty id and the id of a node listed earlier.
   * TreeLemmas.WellFormedIsTree derives the usual tree conditions from it.
   */
  predicate WellFormed(ns: seq<Node>)
    decreases |ns|
  {
    if |ns| == 0 then false
    else if |ns| == 1 then ns[0].id != "" && ns[0].parentId.None?
    else
      var init := ns[..|ns| - 1];
      var n := ns[|ns| - 1];
      && WellFormed(init)
      && n.id != "" && n.id !in Ids(init)
      && n.parentId.Some? && n.parentId.value in Ids(init)
  }

  /** `a` is `b` with some elements left out, order kept. */
  predicate Subseq<T(==)>(a: seq<T>, b: seq<T>)
    decreases |b|
  {
    || |a| == 0
    || (&& |b| > 0
        && ((a[|a| - 1] == b[|b| - 1] && Subseq(a[..|a| - 1], b[..|b| - 1]))
            || Subseq(a, b[..|b| - 1])))
  }

  // ---------------------------------------------------------------- operations

  /** `createRootNode`: appends a root labelled "Central Topic" near the viewport centre and selects it. */
  function CreateRootNode(s: Store, id: string, viewportWidth: real, viewportHeight: real): (r: (Store, Node))
    ensures r.0.nodes == s.nodes + [r.1]
    ensures r.1.id == id && r.1.parentId.None? && r.1.text == RootText
    ensures r.1.x + RootHalfWidth == viewportWidth / 2.0 && r.1.y + RootHalfHeight == viewportHeight / 2.0
    ensures r.1.width.None? && r.1.height.None?
    ensures r.0.selected == Some(id)
  {
    var root := Node(id, RootText, viewportWidth / 2.0 - RootHalfWidth, viewportHeight / 2.0 - RootHalfHeight,
                     None, None, None);
    (Store(s.nodes + [root], Some(root.id)), root)
  }

  /**
   * `addChildNode`: `freshId` stands for `generateId()` and `offset` for the
   * (cos, sin) * 120 displacement of the randomly chosen compass direction.
   */
  function AddChildNode(s: Store, parentId: string, freshId: string, offset: (real, real)): (r: (Store, Option<Node>))
    ensures Find(s.nodes, parentId).None? ==> r.0 == s && r.1.None?
    ensures Find(s.nodes, parentId).Some? ==>
      var p := Find(s.nodes, parentId).value;
      && r.1.Some?
      && r.0.nodes == s.nodes + [r.1.value]
      && r.1.value.id == freshId
      && r.1.value.parentId == Some(parentId) && parentId == p.id
      && r.1.value.text == ChildText
      && r.1.value.x + ChildHalfWidth == p.x + offset.0
      && r.1.value.y + ChildHalfHeight == p.y + offset.1
      && r.1.value.width.None? && r.1.value.height.None?
      && r.0.selected == Some(freshId)
  {
    match Find(s.nodes, parentId)
    case None => (s, None)
    case Some(p) =>
      var child := Node(freshId, ChildText, p.x + offset.0 - ChildHalfWidth, p.y + offset.1 - ChildHalfHeight,
                        Some(parentId), None, None);
      (Store(s.nodes + [child], Some(freshId)), Some(child))
  }

  /** The guard of `deleteSelectedNode`: a truthy id naming a node whose parent link is truthy. */
  predicate DeleteApplies(ns: seq<Node>, selectedId: string) {
    selectedId != "" && Find(ns, selectedId).Some? && Truthy(Find(ns, selectedId).value.parentId)
  }

  /** The nodes of `ns` that are not descendants of `target` in `all`, in order (the `filter` of the delete). */
  function Prune(all: seq<Node>, target: string, ns: seq<Node>): (r: seq<Node>)
    ensures |r| <= |ns|
    decreases |ns|
  {
    if |ns| == 0 then []
    else
      var kept := Prune(all, target, ns[..|ns| - 1]);
      if IsDescendant(all, ns[|ns| - 1].id, target) then kept else kept + [ns[|ns| - 1]]
  }

  /** The prune keeps every copy of a non-descendant and no copy of a descendant. */
  lemma {:induction false} PruneCounts(all: seq<Node>, target: string, ns: seq<Node>)
    ensures forall n ::
      multiset(Prune(all, target, ns))[n] == if IsDescendant(all, n.id, target) then 0 else multiset(ns)[n]
    decreases |ns|
  {
    if |ns| > 0 {
      var init := ns[..|ns| - 1];
      var last := ns[|ns| - 1];
      PruneCounts(all, target, init);
      assert ns == init + [last];
      assert multiset(ns) == multiset(init) + multiset{last};
    }
  }

  /** The prune keeps the list order. */
  lemma {:induction false} PruneOrder(all: seq<Node>, target: string, ns: seq<Node>)
    ensures Subseq(Prune(all, target, ns), ns)
    decreases |ns|
  {
    if |ns| > 0 {
      var init := ns[..|ns| - 1];
      var last := ns[|ns| - 1];
      PruneOrder(all, target, init);
      var kept := Prune(all, target, init);
      if !IsDescendant(all, last.id, target) {
        var r := kept + [last];
        assert r[..|r| - 1] == kept;
      }
    }
  }

  /** The prune keeps exactly the non-descendants, each as often as it is listed, in their original order. */
  lemma PruneMembers(all: seq<Node>, target: string, ns: seq<Node>)
    ensures forall n :: n in Prune(all, target, ns) <==> n in ns && !IsDescendant(all, n.id, target)
    ensures forall n ::
      multiset(Prune(all, target, ns))[n] == if IsDescendant(all, n.id, target) then 0 else multiset(ns)[n]
    ensures Subseq(Prune(all, target, ns), ns)
  {
    PruneCounts(all, target, ns);
    PruneOrder(all, target, ns);
    var r := Prune(all, target, ns);
    forall n ensures n in r <==> n in ns && !IsDescendant(all, n.id, target) {
      assert n in r <==> n in multiset(r);
      assert n in ns <==> n in multiset(ns);
    }
  }

  /** Membership half of `PruneMembers`, for proofs that need nothing else. */
  lemma PruneMembership(all: seq<Node>, target: string, ns: seq<Node>)
    ensures forall n :: n in Prune(all, target, ns) <==> n in ns && !IsDescendant(all, n.id, target)
  {
    PruneMembers(all, target, ns);
  }

  /** `deleteSelectedNode`: removes the node and its whole subtree, then clears the selection. */
  function DeleteSelectedNode(s: Store, selectedId: string): (r: Store)
    ensures !DeleteApplies(s.nodes, selectedId) ==> r == s
    ensures DeleteApplies(s.nodes, selectedId) ==>
      && r.selected.None?
      && (forall n :: n in r.nodes <==> n in s.nodes && !IsDescendant(s.nodes, n.id, selectedId))
      && (forall n :: multiset(r.nodes)[n] == if IsDescendant(s.nodes, n.id, selectedId) then 0 else multiset(s.nodes)[n])
      && Subseq(r.nodes, s.nodes)
  {
    if !DeleteApplies(s.nodes, selectedId) then s
    else
      PruneMembers(s.nodes, selectedId, s.nodes);
      Store(Prune(s.nodes, selectedId, s.nodes), None)
  }

  /** `selectNode`: no check that the id exists. */
  function SelectNode(s: Store, nodeId: string): (r: Store)
    ensures r.nodes == s.nodes && r.selected == Some(nodeId)
  {
    s.(selected := Some(nodeId))
  }

  /** `updateNodePosition`: every node carrying `nodeId` gets the new coordinates; nothing else changes. */
  function UpdateNodePosition(ns: seq<Node>, nodeId: string, x: real, y: real): (r: seq<Node>)
    ensures |r| == |ns|
    ensures forall i | 0 <= i < |ns| ::
      && r[i].id == ns[i].id && r[i].parentId == ns[i].parentId && r[i].text == ns[i].text
      && r[i].width == ns[i].width && r[i].height == ns[i].height
      && (ns[i].id == nodeId ==> r[i].x == x && r[i].y == y)
      && (ns[i].id != nodeId ==> r[i] == ns[i])
  {
    seq(|ns|, i requires 0 <= i < |ns| => if ns[i].id == nodeId then ns[i].(x := x, y := y) else ns[i])
  }

  /** `updateNodeText`: every node carrying `nodeId` gets the new label; nothing else changes. */
  function UpdateNodeText(ns: seq<Node>, nodeId: string, text: string): (r: seq<Node>)
    ensures |r| == |ns|
    ensures forall i | 0 <= i < |ns| ::
      && r[i].id == ns[i].id && r[i].parentId == ns[i].parentId
      && r[i].x == ns[i].x && r[i].y == ns[i].y
      && r[i].width == ns[i].width && r[i].height == ns[i].height
      && (ns[i].id == nodeId ==> r[i].text == text)
      && (ns[i].id != nodeId ==> r[i] == ns[i])
  {
    seq(|ns|, i requires 0 <= i < |ns| => if ns[i].id == nodeId then ns[i].(text := text) else ns[i])
  }

  /** A node whose parent link is truthy and names a node of `all`. */
  predicate HasLiveParent(all: seq<Node>, n: Node) {
    ParentRef(n).Some? && Find(all, ParentRef(n).value).Some?
  }

  function Children(cs: seq<Connection>): seq<Node> {
    seq(|cs|, k requires 0 <= k < |cs| => cs[k].child)
  }

  /** The connections contributed by the nodes of `ns`, parents looked up in `all`. */
  function ConnectionsFrom(all: seq<Node>, ns: seq<Node>): seq<Connection>
    decreases |ns|
  {
    if |ns| == 0 then []
    else
      var rest := ConnectionsFrom(all, ns[..|ns| - 1]);
      var last := ns[|ns| - 1];
      if HasLiveParent(all, last) then rest + [Connection(Find(all, ParentRef(last).value).value, last)]
      else rest
  }

  /** A connection joins a child to the listed node its truthy parent id names. */
  predicate Linked(all: seq<Node>, c: Connection) {
    && c.parent in all
    && c.child.parentId == Some(c.parent.id)
    && c.parent.id != ""
    && HasLiveParent(all, c.child)
    && c.parent == Find(all, ParentRef(c.child).value).value
  }

  /** Every connection is linked. */
  lemma {:induction false} ConnectionsLinks(all: seq<Node>, ns: seq<Node>)
    ensures forall c | c in ConnectionsFrom(all, ns) :: Linked(all, c)
    decreases |ns|
  {
    if |ns| > 0 {
      ConnectionsLinks(all, ns[..|ns| - 1]);
    }
  }

  /** Each node with a live parent gives one connection per copy of it; no other node gives any. */
  lemma {:induction false} ConnectionsCounts(all: seq<Node>, ns: seq<Node>)
    ensures forall n ::
      multiset(Children(ConnectionsFrom(all, ns)))[n] == if HasLiveParent(all, n) then multiset(ns)[n] else 0
    decreases |ns|
  {
    if |ns| > 0 {
      var init := ns[..|ns| - 1];
      var last := ns[|ns| - 1];
      ConnectionsCounts(all, init);
      var rest := ConnectionsFrom(all, init);
      assert ns == init + [last];
      assert multiset(ns) == multiset(init) + multiset{last};
      if HasLiveParent(all, last) {
        var r := rest + [Connection(Find(all, ParentRef(last).value).value, last)];
        assert Children(r) == Children(rest) + [last];
      }
    }
  }

  /** The connections keep the list order of their children. */
  lemma {:induction false} ConnectionsOrder(all: seq<Node>, ns: seq<Node>)
    ensures Subseq(Children(ConnectionsFrom(all, ns)), ns)
    decreases |ns|
  {
    if |ns| > 0 {
      var init := ns[..|ns| - 1];
      var last := ns[|ns| - 1];
      ConnectionsOrder(all, init);
      var rest := ConnectionsFrom(all, init);
      if HasLiveParent(all, last) {
        var r := rest + [Connection(Find(all, ParentRef(last).value).value, last)];
        assert Children(r) == Children(rest) + [last];
        assert Children(r)[..|r| - 1] == Children(rest);
      }
    }
  }

  /** The children of the connections are exactly the nodes with a live parent, each copy once, in list order. */
  lemma ConnectionsMembers(all: seq<Node>, ns: seq<Node>)
    ensures forall n :: n in Children(ConnectionsFrom(all, ns)) <==> n in ns && HasLiveParent(all, n)
    ensures forall n ::
      multiset(Children(ConnectionsFrom(all, ns)))[n] == if HasLiveParent(all, n) then multiset(ns)[n] else 0
    ensures Subseq(Children(ConnectionsFrom(all, ns)), ns)
  {
    ConnectionsCounts(all, ns);
    ConnectionsOrder(all, ns);
    var cs := Children(ConnectionsFrom(all, ns));
    forall n ensures n in cs <==> n in ns && HasLiveParent(all, n) {
      assert n in cs <==> n in multiset(cs);
      assert n in ns <==> n in multiset(ns);
    }
  }

  /** `getConnections`: one pair per node whose truthy parent id resolves, in list order. */
  function GetConnections(ns: seq<Node>): (r: seq<Connection>)
    ensures forall k | 0 <= k < |r| :: r[k].parent in ns && r[k].child.parentId == Some(r[k].parent.id)
    ensures forall k | 0 <= k < |r| :: HasLiveParent(ns, r[k].child) && r[k].parent == Find(ns, ParentRef(r[k].child).value).value
    ensures forall n :: n in Children(r) <==> n in ns && HasLiveParent(ns, n)
    ensures forall n :: multiset(Children(r))[n] == if HasLiveParent(ns, n) then multiset(ns)[n] else 0
    ensures Subseq(Children(r), ns)
  {
    ConnectionsLinks(ns, ns);
    ConnectionsMembers(ns, ns);
    var r := ConnectionsFrom(ns, ns);
    assert forall k | 0 <= k < |r| :: Linked(ns, r[k]);
    r
  }

  /** `resetMap`: drops every node and the selection, then creates a fresh root. */
  function ResetMap(s: Store, rootId: string, viewportWidth: real, viewportHeight: real): (r: Store)
    ensures |r.nodes| == 1
    ensures r.nodes[0].id == rootId && r.nodes[0].parentId.None? && r.nodes[0].text == RootText
    ensures r.nodes[0].x + RootHalfWidth == viewportWidth / 2.0 && r.nodes[0].y + RootHalfHeight == viewportHeight / 2.0
    ensures r.nodes[0].width.None? && r.nodes[0].height.None?
    ensures r.selected == Some(rootId)
    ensures WellFormed(r.nodes) <==> rootId != ""
  {
    CreateRootNode(Store([], None), rootId, viewportWidth, viewportHeight).0
  }
}

=== FILE: viewport.dfy ===
/**
 * The canvas transform of the mind-map component
 * (app/src/app/components/mindmap/mindmap.component.ts): scale and pan,
 * zoom around a point, scale-compensated panning, pinch scaling,
 * fit-to-content and reset.
 *
 * Both `zoom` and `fitView` compute with screen offset = pan + scale * p
 * for a world point p. Numbers are reals: IEEE rounding, infinities and NaN
 * are not modelled.
 */
module Viewport {
  import opened Wrappers
  import opened TreeStore

  datatype Point = Point(x: real, y: real)

  datatype View = View(scale: real, panX: real, panY: real)

  /** An axis-aligned box (min corner, max corner). */
  datatype Box = Box(minX: real, minY: real, maxX: real, maxY: real)

  const MinScale: real := 0.5
  const MaxScale: real := 3.0
  /** `fitView` never zooms in past 100%. */
  const FitMaxScale: real := 1.0
  const FitPadding: real := 20.0
  const WheelStep: real := 0.1
  const DefaultNodeWidth: real := 100.0
  const DefaultNodeHeight: real := 40.0

  /** The view the component starts with and `resetView` returns to. */
  const Initial: View := View(1.0, 0.0, 0.0)

  function Min(a: real, b: real): real { if a <= b then a else b }
  function Max(a: real, b: real): real { if a >= b then a else b }

  /** `Math.min(Math.max(lo, v), hi)`. */
  function Clamp(v: real, lo: real, hi: real): (r: real)
    requires lo <= hi
    ensures lo <= r <= hi
    ensures lo <= v <= hi ==> r == v
    ensures v < lo ==> r == lo
    ensures v > hi ==> r == hi
  {
    Min(Max(lo, v), hi)
  }

  predicate InRange(v: View) {
    MinScale <= v.scale <= MaxScale
  }

  /** The world coordinate drawn at `screen` on one axis. */
  function WorldAt(screen: real, pan: real, scale: real): real
    requires scale != 0.0
  {
    (screen - pan) / scale
  }

  /**
   * `zoom(delta, clientX, clientY)`: the new scale is the clamped sum; if it
   * differs from the old one and the container's rectangle is known
   * (`origin` is its `left`/`top`), the pan is re-solved so that
   * `(client - origin - pan) / scale` is the same before and after.
   */
  function Zoom(v: View, delta: real, client: Point, origin: Option<Point>): (r: View)
    requires v.scale > 0.0
    ensures r.scale == Clamp(v.scale + delta, MinScale, MaxScale) && InRange(r)
    ensures r.scale == v.scale ==> r == v
    ensures origin.None? ==> r.panX == v.panX && r.panY == v.panY
    ensures origin.Some? ==>
      && WorldAt(client.x - origin.value.x, r.panX, r.scale) == WorldAt(client.x - origin.value.x, v.panX, v.scale)
      && WorldAt(client.y - origin.value.y, r.panY, r.scale) == WorldAt(client.y - origin.value.y, v.panY, v.scale)
  {
    var newScale := Clamp(v.scale + delta, MinScale, MaxScale);
    if newScale == v.scale then v
    else
      match origin
      case None => v.(scale := newScale)
      case Some(o) =>
        var xBefore := (client.x - o.x - v.panX) / v.scale;
        var yBefore := (client.y - o.y - v.panY) / v.scale;
        var r := View(newScale, client.x - o.x - xBefore * newScale, client.y - o.y - yBefore * newScale);
        assert WorldAt(client.x - o.x, r.panX, r.scale) == xBefore by {
          assert client.x - o.x - r.panX == xBefore * newScale;
        }
        assert WorldAt(client.y - o.y, r.panY, r.scale) == yBefore by {
          assert client.y - o.y - r.panY == yBefore * newScale;
        }
        r
  }

  /** `onWheel`: scrolling down zooms out one step, anything else zooms in one step. */
  function WheelZoom(v: View, deltaY: real, client: Point, origin: Option<Point>): (r: View)
    requires v.scale > 0.0
    ensures deltaY > 0.0 ==> r.scale == Clamp(v.scale - WheelStep, MinScale, MaxScale)
    ensures deltaY <= 0.0 ==> r.scale == Clamp(v.scale + WheelStep, MinScale, MaxScale)
    ensures InRange(v) && deltaY > 0.0 ==> r.scale <= v.scale
    ensures InRange(v) && deltaY <= 0.0 ==> r.scale >= v.scale
    ensures r.scale == v.scale ==> r == v
    ensures origin.None? ==> r.panX == v.panX && r.panY == v.panY
    ensures origin.Some? ==>
      && WorldAt(client.x - origin.value.x, r.panX, r.scale) == WorldAt(client.x - origin.value.x, v.panX, v.scale)
      && WorldAt(client.y - origin.value.y, r.panY, r.scale) == WorldAt(client.y - origin.value.y, v.panY, v.scale)
  {
    Zoom(v, if deltaY > 0.0 then -WheelStep else WheelStep, client, origin)
  }

  /**
   * One pan step of a mouse or touch drag on the background: the pointer's
   * screen movement since `last`, divided by the scale, is added to the pan.
   */
  function PanBy(v: View, last: Point, pointer: Point): (r: View)
    requires v.scale > 0.0
    ensures r.scale == v.scale
    ensures (r.panX - v.panX) * v.scale == pointer.x - last.x
    ensures (r.panY - v.panY) * v.scale == pointer.y - last.y
  {
    View(v.scale, v.panX + (pointer.x - last.x) / v.scale, v.panY + (pointer.y - last.y) / v.scale)
  }

  /** Panning in two steps through an intermediate pointer position is panning in one. */
  lemma PanComposes(v: View, a: Point, b: Point, c: Point)
    requires v.scale > 0.0
    ensures PanBy(PanBy(v, a, b), b, c) == PanBy(v, a, c)
  {
    var s := v.scale;
    assert (b.x - a.x) / s + (c.x - b.x) / s == (c.x - a.x) / s;
    assert (b.y - a.y) / s + (c.y - b.y) / s == (c.y - a.y) / s;
  }

  /** The pinch scale: the gesture's starting scale times the finger-distance ratio, clamped. */
  function PinchScale(initialScale: real, initialDistance: real, currentDistance: real): (r: real)
    requires initialDistance > 0.0
    ensures MinScale <= r <= MaxScale
    ensures MinScale <= initialScale * currentDistance / initialDistance <= MaxScale ==>
      r * initialDistance == initialScale * currentDistance
    ensures initialScale * currentDistance / initialDistance < MinScale ==> r == MinScale
    ensures initialScale * currentDistance / initialDistance > MaxScale ==> r == MaxScale
  {
    assert initialScale * (currentDistance / initialDistance) == initialScale * currentDistance / initialDistance;
    Clamp(initialScale * (currentDistance / initialDistance), MinScale, MaxScale)
  }

  /** Returning the fingers to their starting distance restores the starting scale. */
  lemma PinchBackToStart(initialScale: real, d: real)
    requires d > 0.0 && MinScale <= initialScale <= MaxScale
    ensures PinchScale(initialScale, d, d) == initialScale
  {
    assert d / d == 1.0;
  }

  /** Zooming in and then out by the same step, around the same point, restores the view. */
  lemma ZoomUndo(v: View, delta: real, client: Point, origin: Point)
    requires InRange(v) && delta != 0.0
    requires MinScale <= v.scale + delta <= MaxScale
    ensures Zoom(Zoom(v, delta, client, Some(origin)), -delta, client, Some(origin)) == v
  {
    var w := Zoom(v, delta, client, Some(origin));
    var u := Zoom(w, -delta, client, Some(origin));
    assert w.scale == v.scale + delta;
    assert u.scale == v.scale;
    var sx := client.x - origin.x;
    var sy := client.y - origin.y;
    assert (sx - u.panX) / v.scale == (sx - v.panX) / v.scale;
    assert (sy - u.panY) / v.scale == (sy - v.panY) / v.scale;
  }

  /**
   * One notch of the wheel up and one down, at the same pointer, cancel out
   * whenever neither hits a scale limit.
   */
  lemma WheelUndo(v: View, up: real, down: real, client: Point, origin: Point)
    requires InRange(v) && up <= 0.0 && down > 0.0
    requires v.scale + WheelStep <= MaxScale
    ensures WheelZoom(WheelZoom(v, up, client, Some(origin)), down, client, Some(origin)) == v
  {
    ZoomUndo(v, WheelStep, client, origin);
  }

  /** `resetView`. */
  function ResetView(): (r: View)
    ensures r.scale == 1.0 && r.panX == 0.0 && r.panY == 0.0 && InRange(r)
  {
    Initial
  }

  // ------------------------------------------------------------ fit to content

  /** `node.width || 100`: an absent or zero width reads as the default. */
  function NodeWidth(n: Node): real {
    if n.width.Some? && n.width.value != 0.0 then n.width.value else DefaultNodeWidth
  }

  function NodeHeight(n: Node): real {
    if n.height.Some? && n.height.value != 0.0 then n.height.value else DefaultNodeHeight
  }

  predicate PositiveSizes(ns: seq<Node>) {
    forall i | 0 <= i < |ns| :: NodeWidth(ns[i]) > 0.0 && NodeHeight(ns[i]) > 0.0
  }

  predicate Covers(b: Box, n: Node) {
    b.minX <= n.x && n.x + NodeWidth(n) <= b.maxX && b.minY <= n.y && n.y + NodeHeight(n) <= b.maxY
  }

  /** `b` is the smallest box holding every node's rectangle: it covers them all and each side touches one. */
  predicate IsBoundingBox(b: Box, ns: seq<Node>) {
    && (forall i | 0 <= i < |ns| :: Covers(b, ns[i]))
    && (exists i | 0 <= i < |ns| :: ns[i].x == b.minX)
    && (exists i | 0 <= i < |ns| :: ns[i].y == b.minY)
    && (exists i | 0 <= i < |ns| :: ns[i].x + NodeWidth(ns[i]) == b.maxX)
    && (exists i | 0 <= i < |ns| :: ns[i].y + NodeHeight(ns[i]) == b.maxY)
  }

  lemma BoundingBoxUnique(b1: Box, b2: Box, ns: seq<Node>)
    requires IsBoundingBox(b1, ns) && IsBoundingBox(b2, ns)
    ensures b1 == b2
  {
    var i1 :| 0 <= i1 < |ns| && ns[i1].x == b1.minX;
    var i2 :| 0 <= i2 < |ns| && ns[i2].x == b2.minX;
    assert Covers(b1, ns[i2]) && Covers(b2, ns[i1]);
    var j1 :| 0 <= j1 < |ns| && ns[j1].y == b1.minY;
    var j2 :| 0 <= j2 < |ns| && ns[j2].y == b2.minY;
    assert Covers(b1, ns[j2]) && Covers(b2, ns[j1]);
    var k1 :| 0 <= k1 < |ns| && ns[k1].x + NodeWidth(ns[k1]) == b1.maxX;
    var k2 :| 0 <= k2 < |ns| && ns[k2].x + NodeWidth(ns[k2]) == b2.maxX;
    assert Covers(b1, ns[k2]) && Covers(b2, ns[k1]);
    var l1 :| 0 <= l1 < |ns| && ns[l1].y + NodeHeight(ns[l1]) == b1.maxY;
    var l2 :| 0 <= l2 < |ns| && ns[l2].y + NodeHeight(ns[l2]) == b2.maxY;
    assert Covers(b1, ns[l2]) && Covers(b2, ns[l1]);
  }

  lemma BoundingBoxHasArea(b: Box, ns: seq<Node>)
    requires IsBoundingBox(b, ns) && PositiveSizes(ns)
    ensures b.minX < b.maxX && b.minY < b.maxY
  {
    var i :| 0 <= i < |ns| && ns[i].x == b.minX;
    var j :| 0 <= j < |ns| && ns[j].y == b.minY;
    assert Covers(b, ns[i]) && Covers(b, ns[j]);
  }

  /** One iteration of the `forEach` of `fitView`: widen the box to take in node `n`. */
  function Grow(b: Box, n: Node): Box {
    Box(Min(b.minX, n.x), Min(b.minY, n.y), Max(b.maxX, n.x + NodeWidth(n)), Max(b.maxY, n.y + NodeHeight(n)))
  }

  /** Widening the bounding box of `p` by `n` gives the bounding box of `p + [n]`. */
  lemma GrowBounds(b: Box, p: seq<Node>, n: Node)
    requires IsBoundingBox(b, p)
    ensures IsBoundingBox(Grow(b, n), p + [n])
  {
    var q := p + [n];
    var g := Grow(b, n);
    forall k | 0 <= k < |q| ensures Covers(g, q[k]) {
      if k < |p| { assert q[k] == p[k] && Covers(b, p[k]); }
    }
    var i :| 0 <= i < |p| && p[i].x == b.minX;
    var j :| 0 <= j < |p| && p[j].y == b.minY;
    var k :| 0 <= k < |p| && p[k].x + NodeWidth(p[k]) == b.maxX;
    var l :| 0 <= l < |p| && p[l].y + NodeHeight(p[l]) == b.maxY;
    assert q[i] == p[i] && q[j] == p[j] && q[k] == p[k] && q[l] == p[l] && q[|p|] == n;
  }

  /** The rectangle of a single node is its bounding box. */
  function NodeBox(n: Node): Box {
    Box(n.x, n.y, n.x + NodeWidth(n), n.y + NodeHeight(n))
  }

  lemma NodeBoxBounds(ns: seq<Node>)
    requires |ns| > 0
    ensures IsBoundingBox(NodeBox(ns[0]), ns[..1])
  {
    assert ns[..1][0] == ns[0];
  }

  lemma GrowPrefix(b: Box, ns: seq<Node>, i: nat)
    requires i < |ns| && IsBoundingBox(b, ns[..i])
    ensures IsBoundingBox(Grow(b, ns[i]), ns[..i + 1])
  {
    GrowBounds(b, ns[..i], ns[i]);
    assert ns[..i + 1] == ns[..i] + [ns[i]];
  }

  /**
   * The `forEach` of `fitView` that grows the box node by node; the source
   * starts from +/-Infinity, which the first node replaces.
   */
  method BoundingBox(ns: seq<Node>) returns (b: Box)
    requires |ns| > 0
    ensures IsBoundingBox(b, ns)
  {
    b := NodeBox(ns[0]);
    NodeBoxBounds(ns);
    var i := 1;
    while i < |ns|
      invariant 1 <= i <= |ns|
      invariant IsBoundingBox(b, ns[..i])
    {
      GrowPrefix(b, ns, i);
      b := Grow(b, ns[i]);
      i := i + 1;
    }
  }

  /** The scale that fits a box of the given extent into the padded viewport, on one axis. */
  function FitRatio(viewport: real, extent: real): real
    requires extent > 0.0
  {
    (viewport - 2.0 * FitPadding) / extent
  }

  /** At scale `s` the box, padded by 20 on every side, fits in the viewport. */
  predicate Fits(b: Box, viewportWidth: real, viewportHeight: real, s: real) {
    && s * (b.maxX - b.minX) <= viewportWidth - 2.0 * FitPadding
    && s * (b.maxY - b.minY) <= viewportHeight - 2.0 * FitPadding
  }

  /** A scale fits exactly when it is at most both fit ratios. */
  lemma FitsIffWithinRatios(b: Box, viewportWidth: real, viewportHeight: real, s: real)
    requires b.minX < b.maxX && b.minY < b.maxY
    ensures Fits(b, viewportWidth, viewportHeight, s) <==>
      s <= FitRatio(viewportWidth, b.maxX - b.minX) && s <= FitRatio(viewportHeight, b.maxY - b.minY)
  {
    var w, h := b.maxX - b.minX, b.maxY - b.minY;
    var qx, qy := FitRatio(viewportWidth, w), FitRatio(viewportHeight, h);
    assert qx * w == viewportWidth - 2.0 * FitPadding && qy * h == viewportHeight - 2.0 * FitPadding;
    if s <= qx { MulMono(s, qx, w); } else { MulMono(qx, s, w); assert s * w != qx * w; }
    if s <= qy { MulMono(s, qy, h); } else { MulMono(qy, s, h); assert s * h != qy * h; }
  }

  /**
   * The transform `fitView` computes for a bounding box: the largest scale
   * up to 1 at which the padded box fits, but never below 0.5, and the pan
   * that puts the box's centre at the viewport's centre.
   */
  function FitTo(b: Box, viewportWidth: real, viewportHeight: real): (r: View)
    requires b.minX < b.maxX && b.minY < b.maxY
    ensures MinScale <= r.scale <= FitMaxScale
    ensures Fits(b, viewportWidth, viewportHeight, r.scale) || r.scale == MinScale
    ensures forall s :: r.scale < s <= FitMaxScale ==> !Fits(b, viewportWidth, viewportHeight, s)
    ensures r.panX + (b.minX + b.maxX) / 2.0 * r.scale == viewportWidth / 2.0
    ensures r.panY + (b.minY + b.maxY) / 2.0 * r.scale == viewportHeight / 2.0
  {
    var scale := Min(FitRatio(viewportWidth, b.maxX - b.minX), FitRatio(viewportHeight, b.maxY - b.minY));
    var s := Max(MinScale, Min(FitMaxScale, scale));
    FitsIffWithinRatios(b, viewportWidth, viewportHeight, s);
    assert forall t :: s < t <= FitMaxScale ==> !Fits(b, viewportWidth, viewportHeight, t) by {
      forall t | s < t <= FitMaxScale ensures !Fits(b, viewportWidth, viewportHeight, t) {
        FitsIffWithinRatios(b, viewportWidth, viewportHeight, t);
      }
    }
    View(s, viewportWidth / 2.0 - (b.minX + b.maxX) / 2.0 * s, viewportHeight / 2.0 - (b.minY + b.maxY) / 2.0 * s)
  }

  /** `fitView`: nothing for an empty map, otherwise the fit of the nodes' bounding box. */
  method FitView(v: View, ns: seq<Node>, viewportWidth: real, viewportHeight: real) returns (r: View)
    requires PositiveSizes(ns)
    ensures |ns| == 0 ==> r == v
    ensures |ns| > 0 ==> MinScale <= r.scale <= FitMaxScale
    ensures |ns| > 0 ==> forall b | IsBoundingBox(b, ns) ::
      b.minX < b.maxX && b.minY < b.maxY && r == FitTo(b, viewportWidth, viewportHeight)
  {
    if |ns| == 0 {
      return v;
    }
    var box := BoundingBox(ns);
    BoundingBoxHasArea(box, ns);
    r := FitTo(box, viewportWidth, viewportHeight);
    forall b | IsBoundingBox(b, ns) ensures b == box {
      BoundingBoxUnique(b, box, ns);
    }
  }

  /** Screen offset of a world coordinate on one axis. */
  function ScreenAt(world: real, pan: real, scale: real): real {
    pan + world * scale
  }

  lemma MulMono(a: real, b: real, c: real)
    requires a <= b && c > 0.0
    ensures a * c <= b * c
  {
  }

  lemma RatioBound(s: real, viewport: real, extent: real)
    requires extent > 0.0 && s <= FitRatio(viewport, extent)
    ensures s * extent <= viewport - 2.0 * FitPadding
  {
    var q := FitRatio(viewport, extent);
    MulMono(s, q, extent);
    assert q * extent == viewport - 2.0 * FitPadding;
  }

  /** On one axis: a span inside [lo, hi], drawn centred at scale s, stays inside the padded viewport. */
  lemma AxisInside(lo: real, hi: real, s: real, viewport: real, pan: real, a: real, len: real)
    requires lo <= a && a + len <= hi && s > 0.0
    requires s * (hi - lo) <= viewport - 2.0 * FitPadding
    requires pan + (lo + hi) / 2.0 * s == viewport / 2.0
    ensures FitPadding <= ScreenAt(a, pan, s)
    ensures ScreenAt(a + len, pan, s) <= viewport - FitPadding
  {
    MulMono(lo, a, s);
    MulMono(a + len, hi, s);
    var l, h := lo * s, hi * s;
    assert (lo + hi) / 2.0 * s == (l + h) / 2.0;
    assert s * (hi - lo) == h - l;
    assert ScreenAt(a, pan, s) == pan + a * s;
    assert ScreenAt(a + len, pan, s) == pan + (a + len) * s;
  }

  /** With neither fit ratio below 0.5, the fitted scale is at most both ratios. */
  lemma FitScaleWithinRatios(b: Box, viewportWidth: real, viewportHeight: real)
    requires b.minX < b.maxX && b.minY < b.maxY
    requires FitRatio(viewportWidth, b.maxX - b.minX) >= MinScale
    requires FitRatio(viewportHeight, b.maxY - b.minY) >= MinScale
    ensures var s := FitTo(b, viewportWidth, viewportHeight).scale;
      && s * (b.maxX - b.minX) <= viewportWidth - 2.0 * FitPadding
      && s * (b.maxY - b.minY) <= viewportHeight - 2.0 * FitPadding
  {
    var s := FitTo(b, viewportWidth, viewportHeight).scale;
    RatioBound(s, viewportWidth, b.maxX - b.minX);
    RatioBound(s, viewportHeight, b.maxY - b.minY);
  }

  /** One node of the box, drawn with the fitted transform, lies inside the padded viewport. */
  lemma NodeInside(b: Box, n: Node, r: View, viewportWidth: real, viewportHeight: real)
    requires Covers(b, n) && r.scale > 0.0
    requires r.scale * (b.maxX - b.minX) <= viewportWidth - 2.0 * FitPadding
    requires r.scale * (b.maxY - b.minY) <= viewportHeight - 2.0 * FitPadding
    requires r.panX + (b.minX + b.maxX) / 2.0 * r.scale == viewportWidth / 2.0
    requires r.panY + (b.minY + b.maxY) / 2.0 * r.scale == viewportHeight / 2.0
    ensures FitPadding <= ScreenAt(n.x, r.panX, r.scale)
    ensures ScreenAt(n.x + NodeWidth(n), r.panX, r.scale) <= viewportWidth - FitPadding
    ensures FitPadding <= ScreenAt(n.y, r.panY, r.scale)
    ensures ScreenAt(n.y + NodeHeight(n), r.panY, r.scale) <= viewportHeight - FitPadding
  {
    AxisInside(b.minX, b.maxX, r.scale, viewportWidth, r.panX, n.x, NodeWidth(n));
    AxisInside(b.minY, b.maxY, r.scale, viewportHeight, r.panY, n.y, NodeHeight(n));
  }

  /**
   * Whenever neither fit ratio is below 0.5 (so the lower clamp does not
   * bite), every node is drawn wholly inside the viewport with 20 units of
   * padding on each side.
   */
  lemma FitShowsEveryNode(b: Box, ns: seq<Node>, viewportWidth: real, viewportHeight: real)
    requires IsBoundingBox(b, ns) && PositiveSizes(ns)
    requires b.minX < b.maxX && b.minY < b.maxY
    requires FitRatio(viewportWidth, b.maxX - b.minX) >= MinScale
    requires FitRatio(viewportHeight, b.maxY - b.minY) >= MinScale
    ensures var r := FitTo(b, viewportWidth, viewportHeight);
      forall i | 0 <= i < |ns| ::
        && FitPadding <= ScreenAt(ns[i].x, r.panX, r.scale)
        && ScreenAt(ns[i].x + NodeWidth(ns[i]), r.panX, r.scale) <= viewportWidth - FitPadding
        && FitPadding <= ScreenAt(ns[i].y, r.panY, r.scale)
        && ScreenAt(ns[i].y + NodeHeight(ns[i]), r.panY, r.scale) <= viewportHeight - FitPadding
  {
    var r := FitTo(b, viewportWidth, viewportHeight);
    FitScaleWithinRatios(b, viewportWidth, viewportHeight);
    forall i | 0 <= i < |ns|
      ensures FitPadding <= ScreenAt(ns[i].x, r.panX, r.scale)
      ensures ScreenAt(ns[i].x + NodeWidth(ns[i]), r.panX, r.scale) <= viewportWidth - FitPadding
      ensures FitPadding <= ScreenAt(ns[i].y, r.panY, r.scale)
      ensures ScreenAt(ns[i].y + NodeHeight(ns[i]), r.panY, r.scale) <= viewportHeight - FitPadding
    {
      assert Covers(b, ns[i]);
      NodeInside(b, ns[i], r, viewportWidth, viewportHeight);
    }
  }

  /** A single default-sized node at the origin in a 1000 x 800 viewport: scale 1, node centred. */
  lemma FitSingleNodeExample()
    ensures var n := Node("n", "t", 0.0, 0.0, None, None, None);
      && IsBoundingBox(Box(0.0, 0.0, 100.0, 40.0), [n])
      && FitTo(Box(0.0, 0.0, 100.0, 40.0), 1000.0, 800.0) == View(1.0, 450.0, 380.0)
  {
    var n := Node("n", "t", 0.0, 0.0, None, None, None);
    assert [n][0] == n;
  }
}

=== FILE: wrappers.dfy ===
/** The optional value used for JavaScript's `null` / "not found" results. */
module Wrappers {

  datatype Option<+T> = None | Some(value: T) {

    /** Returns the wrapped value, or `default` when there is none. */
    function GetOr(default: T): T {
      match this
      case Some(v) => v
      case None => default
    }
  }
}
